=== FILE: README.md ===
# File converter core, modelled in Dafny

The repository converts data between CSV, JSON and XML, in two
implementations:

- `converter.py` holds the interactive converter. Its six handlers map a
  table (rows of string cells) to a `<rows>/<row>/<cell>` element tree and
  back. They also map a JSON list of lists to and from a table. An element
  tree maps to and from a JSON dict of the shape
  `{tag, attributes, text, children}`. On JSON input, a shape resolver
  decides whether the payload is a table or a serialised tree.
- `batchprocessor.py` holds six file-to-file converters and
  `batch_convert`. The converters use their own JSON shape for XML,
  `{"rows": [[...], ...]}`. `batch_convert` picks the `.csv`, `.json` and
  `.xml` names in a folder and rewrites each file's path to the output
  path. It then hands each file to the converter for its pair of source
  extension and target format.

The model keeps the two implementations apart, as the code does. Each
converter becomes a pure function from the already-parsed input value to
the value that would be written, or to the error that stops the
conversion.

- The input is a `Table`, an element `Node`, or a `Json` value.
- The error is a `Result` failure. A failure names the kind of Python
  exception (`MissingKey`, `WrongType`, `NotSerialisable`), or
  `NotRecognised` for the resolver's message box.

The modules are these:

- `Results`: `Option`, `Result` and the error kinds. Also `AllOk`, the
  stop-at-first-failure sequencing of a Python loop.
- `JsonValues`: parsed JSON, Python truthiness, `dict.get` with a default,
  and what a `for` loop visits when it iterates a value.
- `XmlTree`: ElementTree elements and `findall` over direct children.
- `Tables`: tables, grids of JSON cells, and the text ElementTree writes
  for a JSON cell.
- `Converter` and `ConverterProofs`: `converter.py`. Its `xml_to_json`
  handler writes `xml_to_dict(root)`, so it is `Converter.XmlToDict`.
- `Batch` and `BatchProofs`: the six converters of `batchprocessor.py`.
- `Dispatch` and `DispatchProofs`: the selection, output-path and routing
  logic of `batch_convert`, with POSIX `os.path` rules.

Some behaviours of the code shape the whole model:

- `batch_convert` selects names with a case-sensitive `endswith`, so
  `DATA.CSV` is not picked up.
- Both `xml_to_csv` variants silently skip children with another tag and
  never look at the root's tag.
- No converter checks that cells are strings. The JSON readers accept any
  parsed value as a cell, and a failure appears only where Python would
  raise.
- `dict_to_xml` builds the whole element tree before anything is written.
  `Converter.Assemble` is that first pass, over a `RawElement` that holds
  the tag, attributes and text as JSON values. `Converter.Write` is
  `tree.write`, which refuses what ElementTree cannot emit.
- The writer formats a list or dict attribute value with Python's `str`.
  That text depends on the dict's key order, which a `map` does not keep,
  so it is a parameter `show` of the XML writers.

## Model

| member | source | states |
|---|---|---|
| Results.AllOk | converter.py:202-204 | A loop that builds a list succeeds exactly when every step succeeds, and then yields the step values in order. A failure carries the error of the first failing step, and every earlier step succeeded. |
| JsonValues.Iterate | batchprocessor.py:50 | A `for` loop over a list visits its elements and over a string its one-character strings. It visits nothing for an empty dict and the key for a one-key dict. `None`, booleans and numbers cannot be iterated. Only a list can yield anything but strings. |
| XmlTree.FindAll | converter.py:66 | `findall(tag)` returns at most the direct children, all with the tag, and all the children when every one has the tag. |
| XmlTree.FindAllMembers | converter.py:66 | `findall(tag)` keeps exactly the direct children that carry the tag. |
| XmlTree.FindAllAppend | converter.py:66 | `findall` over two runs of children is the first run's matches followed by the second's. |
| XmlTree.FindAllSkipsForeign | converter.py:66-68 | A child with another tag can be removed anywhere without changing what `findall` returns. |
| Tables.CellText | converter.py:263 | A cell can be written exactly when it is a string or a falsy value. A string is written as itself, a falsy value as the empty string, and anything else stops the writer. |
| Tables.CellTexts | converter.py:259-263 | A grid converts exactly when every cell is writable, cell by cell in place. Otherwise the error is an unwritable value. |
| Tables.CellTextsLift | converter.py:113-114 | Every table dumped as JSON strings and written back as cell texts gives the same table. |
| Converter.CsvToXml | converter.py:33-39 | The tree has a bare `<rows>` root with one bare `<row>` per table row, in order. Each row has one `<cell>` per cell whose text is the cell value. No element has attributes. |
| Converter.XmlToCsv | converter.py:64-70 | There is one table row per direct `<row>` child, in order. Each holds the texts of that row's direct `<cell>` children, with absent text read as `""`. |
| Converter.CsvToJson | converter.py:113-114 | The JSON document is a list of lists whose rows are the table's cells as strings. |
| Converter.JsonToCsv | converter.py:133-148 | A list of lists is taken as its rows unchanged. Rejection happens exactly when the payload is neither a list of lists nor a dict tagged `"rows"`. Any other failure is a type error in the tree branch. |
| ConverterProofs.CellValuesOne | converter.py:141-143 | A `cell` item contributes its `"text"`, whatever its type, or `""` when it has none. An item with another tag, or none, contributes nothing. |
| ConverterProofs.CellValuesAppend | converter.py:141-143 | The cells of two runs of items are the first run's cells followed by the second's. |
| ConverterProofs.CellValuesSkipsForeign | converter.py:141-143 | An item not tagged `cell` can be removed anywhere in a row without changing the cells read. |
| ConverterProofs.TreeRowsSkipsForeign | converter.py:138-144 | An item not tagged `row` can be removed anywhere among the root's children without changing the rows read, failure included. |
| ConverterProofs.RowWithoutChildren | converter.py:139-144 | A `row` item with no `"children"` is an empty row. |
| ConverterProofs.RowsDictWithoutChildren | converter.py:136-138 | A `rows` dict with no `"children"` has no rows. |
| ConverterProofs.DictItemsInsert | converter.py:138-139 | Inserting a dict among the items of a list inserts its fields at the same place among the dicts visited, and success is unchanged. |
| ConverterProofs.JsonToCsvSkipsForeign | converter.py:136-144 | A dict not tagged `row` can be removed anywhere in a `rows` dict's children without changing what `json_to_csv` reads. |
| ConverterProofs.TreeRowsOne | converter.py:139-145 | An item tagged `row` is one row, holding the cells read from the dicts its `"children"` (default `[]`) iterate to. It is a type error when those are not all dicts. An item with any other tag, or none, is no row. |
| ConverterProofs.TreeRowsAppend | converter.py:139-145 | The rows of two runs of items are the first run's rows followed by the second's. A failure in the first run is reported before anything in the second is read. |
| ConverterProofs.JsonToCsvRowsDict | converter.py:136-145 | On every dict tagged `rows`, `json_to_csv` reads the rows of the dicts its `"children"` (default `[]`) iterate to. It fails with a type error when those are not all dicts. |
| ConverterProofs.JsonToCsvHandWritten | converter.py:136-145 | A hand-written `rows` dict holding one row, with a cell with text `y` and a cell without text, reads as the row `y,`. |
| Converter.XmlToDict | converter.py:179-187 | The dict has exactly the keys tag, attributes, text and children. The tag and attributes are kept, text defaults to `""`, and there is one child dict per child, in order, carrying the child's tag. |
| Converter.Assemble | converter.py:200-205 | Building the tree fails on a non-dict, on a missing `tag`, and whenever any of the four keys is missing, with a missing-key or type error only. On success the element holds the dict's tag, attribute dict and text unchanged, and each listed child is that child's own assembled element, so the rule of no defaults holds at every depth. With all four keys, a dict of attributes and a list of children, building succeeds exactly when every child builds. Otherwise the error is the first failing child's. |
| Converter.AttrsOf | converter.py:276 | The writer accepts the attributes exactly when every name can be qualified and every value is a string, or a list or dict with no member or key among the characters it escapes. Strings are written as themselves, other values through `show`. |
| Tables.TextOf | converter.py:276 | Text is written when it is a string, nothing is written for a falsy value, and anything else stops the writer. `Tables.CellText` is this rule with "nothing written" read back as the empty string. |
| Converter.Write | converter.py:276 | A written element carries the assembled tag and attribute names. String attribute values are kept and any other value is written through `show`. Text is written when it is a string and omitted otherwise. Each child is written as that child on its own is written. The only error is the writer's own. |
| Converter.DictToXml | converter.py:200-205 | The conversion fails on a non-dict, on a missing `tag`, and whenever any of the four keys is missing. A writer error is reported only when the whole tree was built. On success the tag, the attribute names and values (a non-string value through `show`) and the text (when it is a string) come from the dict. Each listed child is converted as that child on its own would be. |
| Converter.JsonToXml | converter.py:254-266 | A dict with a `tag` key, whatever its value, goes to `dict_to_xml`. A list of lists becomes the `rows`/`row`/`cell` tree of its cells, and converts exactly when every cell is writable. Rejection happens exactly when neither holds. |
| ConverterProofs.TableRoundTrip | converter.py:33-70 | Extracting the table from the tree built from any table gives that table back. |
| ConverterProofs.BridgeRestoresExactlyCanonical | converter.py:33-70 | Rebuilding a tree from its extracted table gives the tree back exactly when it has the bare `rows`/`row`/`cell` shape with every cell carrying text. |
| ConverterProofs.XmlToCsvSkipsForeign | converter.py:64-70 | The root's tag, attributes and text do not affect extraction. Neither does a non-`row` child, wherever it stands. |
| ConverterProofs.CellValuesOfDicts | converter.py:142-144 | The cells read from the dicts of a row's children are the texts of its `<cell>` children, absent as `""`. |
| ConverterProofs.TreeRowsOfDicts | converter.py:139-145 | The rows read from the dicts of the root's children are the rows extracted from its `<row>` children. |
| ConverterProofs.XmlJsonCsvAgree | converter.py:137-145 | XML to dict to CSV gives the table XML to CSV gives when the root is `<rows>`. With any other root tag it is rejected. |
| ConverterProofs.TableShapesAgree | converter.py:133-145 | A table read back through the JSON list gives the same rows as through the dict of its XML tree, and both equal the table. |
| ConverterProofs.WriteOkIffWritable | converter.py:276 | The writer succeeds on a built tree exactly when every tag, attribute and text in it is writable. |
| ConverterProofs.DictToXmlOk | converter.py:200-205 | `dict_to_xml` then writing succeeds exactly when the tree can be built and is then writable. |
| ConverterProofs.StructuralFaultBeforeWriterFault | converter.py:200-204 | A missing `tag` in a later child is reported even when an earlier child has a tag the writer would refuse. |
| ConverterProofs.NestedMissingKey | converter.py:200-204 | A child dict without `"text"` stops the whole conversion with a missing key. Below the root there are no defaults either. |
| ConverterProofs.AssembleOfDict | converter.py:179-204 | Building from an element's dict gives the element's tag, attributes, text (absent as `""`) and children. |
| ConverterProofs.WriteOfRaw | converter.py:179-205 | Writing the tree built from an element's dict gives the element back, with absent texts as `""`, when all its names are writable. |
| ConverterProofs.WriteOfRawRefused | converter.py:179-205 | The writer refuses the tree built from an element's dict when some tag or attribute name in it opens `{` with no `}` after it. |
| ConverterProofs.ElementRoundTrip | converter.py:179-205 | Element to dict to element gives the element back, with absent texts as `""`, exactly when all its names are writable. Otherwise the writer refuses it. |
| ConverterProofs.NodeOfDictInverse | converter.py:179-187 | Every dict with the four keys, a writable string tag, writable names with string values, string text and a list of such children is `xml_to_dict` of some element. |
| ConverterProofs.DictRoundTrip | converter.py:179-205 | Dict to element to dict gives back every dict of that shape. |
| ConverterProofs.TableJsonToXml | converter.py:254-263 | CSV to JSON to XML builds the same tree as CSV to XML. |
| ConverterProofs.TreeJsonToXml | converter.py:254-255 | XML to JSON to XML gives the element back, with absent texts as `""`, when all its names are writable, and is refused by the writer otherwise. |
| Batch.CsvToXml | batchprocessor.py:12-17 | Gives the same `rows`/`row`/`cell` structure as the interactive bridge, with each cell's text equal to its value. |
| Batch.XmlToCsv | batchprocessor.py:27 | The texts of the direct `<cell>` children of each direct `<row>` child, in order, with absent text as `""`. |
| Batch.CsvToJson | batchprocessor.py:40 | The table as a list of lists of strings. |
| Batch.IterRows | batchprocessor.py:50 | `writerows` succeeds on a list of lists with its rows. It raises on `None`, a boolean, a number, or a list holding a non-iterable item. Each written row is what iterating the corresponding item visits. |
| Batch.JsonToCsv | batchprocessor.py:47-50 | There is no shape check. The conversion fails exactly when the document or one of its items cannot be iterated, and otherwise writes what iteration visits. |
| Batch.XmlToJson | batchprocessor.py:58 | The document is a dict with the single key `rows`, holding one list per `<row>` child. An entry is `null` exactly when the cell has no text and is the text otherwise. |
| Batch.JsonToXml | batchprocessor.py:68-73 | A non-dict is a type error and a dict without `rows` a missing key. On any `rows` value, a value that cannot be iterated, or an item that cannot be, is a type error (`{"rows": 5}`). Otherwise the rows are what the loops visit, so a string row gives one cell per character. Success then happens exactly when every cell is writable, and yields the `rows`/`row`/`cell` tree of the cell texts. A list of lists is the special case where the rows are its items. Success always yields a bare `rows` root. |
| BatchProofs.JsonToXmlIteratedRows | batchprocessor.py:68-73 | `{"rows": 5}` is a type error, and `{"rows": ["ab"]}` gives one row with the cells `a` and `b`. |
| Batch.JsonToXmlEitherShape | batchprocessor.py:68-73 | Corrected reader: a list of lists becomes the tree of its cells, and everything else is read as `json_to_xml` reads it. |
| Batch.JsonToCsvEitherShape | batchprocessor.py:47-50 | Corrected reader: a dict with a `rows` key writes the rows under that key, and everything else is written as `json_to_csv` writes it. |
| BatchProofs.TableRoundTrip | batchprocessor.py:12-27 | Extracting the table from the tree built from any table gives that table back. |
| BatchProofs.CsvToXmlAgrees | batchprocessor.py:12-17 | The batch tree builder agrees with the interactive one on every table. |
| BatchProofs.XmlToCsvAgrees | batchprocessor.py:27 | The batch extraction agrees with the interactive one on every tree. |
| BatchProofs.CsvToJsonAgrees | batchprocessor.py:40 | The batch JSON writer agrees with the interactive one on every table. |
| BatchProofs.RowsCellTexts | batchprocessor.py:58-73 | The cells written by `xml_to_json` and read by `json_to_xml`'s cell rule are the table `xml_to_csv` extracts, with `null` as `""`. |
| BatchProofs.RowsShapeRoundTrip | batchprocessor.py:58-73 | XML to JSON to XML rebuilds the input's `rows`/`row`/`cell` structure, with absent texts as `""`. |
| BatchProofs.CsvJsonXmlFails | batchprocessor.py:40-69 | CSV to JSON to XML fails for every table, because `json_to_xml` indexes a list with `"rows"`. |
| BatchProofs.EitherShapeToXml | batchprocessor.py:40-73 | With the corrected reader, CSV to JSON to XML gives the CSV to XML tree, and XML to JSON to XML still rebuilds the input's rows. |
| BatchProofs.XmlJsonCsvWritesKey | batchprocessor.py:50-58 | XML to JSON to CSV writes the single row `r,o,w,s` whatever the XML held. |
| BatchProofs.EitherShapeToCsv | batchprocessor.py:40-58 | With the corrected reader, XML to JSON to CSV writes the XML to CSV table, and CSV to JSON to CSV gives the table back. |
| Dispatch.Join | batchprocessor.py:80 | The joined path ends with the name, and an absolute name replaces the folder. |
| DispatchProofs.JoinRelative | batchprocessor.py:80 | A relative name is appended to the folder with at most one `/` between them. A `/` is added exactly when the folder is non-empty and does not end in one; otherwise the two are concatenated. |
| Dispatch.RFind | batchprocessor.py:86 | The index of the last occurrence, or -1 when there is none. |
| Dispatch.SplitExt | batchprocessor.py:86-87 | Stem and extension concatenate to the path. A non-empty extension starts with its only dot and holds no slash. Some non-dot character precedes it in the last path component. |
| Dispatch.Route | batchprocessor.py:87-99 | A converter is chosen exactly when the extension and the format string name two different known formats. It is the converter for that pair. |
| Dispatch.TaskFor | batchprocessor.py:86-99 | A file gets a task exactly when its lower-cased extension routes. The task converts that file between two different formats and writes to the rewritten output path. |
| Dispatch.Files | batchprocessor.py:80 | The pick is no longer than the listing, and empty exactly when no name ends in `.csv`, `.json` or `.xml`. |
| DispatchProofs.FilesAppend | batchprocessor.py:80 | The pick from two runs of names is the first run's pick followed by the second's, so listing order is kept. |
| DispatchProofs.FilesOne | batchprocessor.py:80 | A single name is picked, joined to the folder, exactly when it ends in one of the three suffixes. |
| DispatchProofs.FilesFromEligible | batchprocessor.py:80 | Every picked file is an eligible name joined to the folder. |
| DispatchProofs.FilesPicksEvery | batchprocessor.py:80 | Every eligible name is picked. |
| Dispatch.TasksForMembers | batchprocessor.py:85-99 | Every submitted task is the task of one of the files, and every file that routes has its task submitted. |
| Dispatch.Submit | batchprocessor.py:85-99 | The submission loop hands over, in file order, exactly the tasks of the files that route to a converter. |
| Dispatch.BatchConvert | batchprocessor.py:79-99 | An empty pick submits nothing, and exactly then. Otherwise one task is submitted per routed file, in listing order. Each converts between different formats and writes to its input's rewritten path. |
| DispatchProofs.SuffixIsExtension | batchprocessor.py:80-87 | A path ending in a dotted suffix has that suffix as its extension, or none. It has the suffix exactly when a non-dot character precedes it in the last component. |
| DispatchProofs.EligibleExtension | batchprocessor.py:80-87 | The extension of a picked name is `.csv`, `.json`, `.xml` or empty. |
| DispatchProofs.LowerKeepsKnownExtension | batchprocessor.py:87 | Lower-casing the extension of a picked name changes nothing. |
| DispatchProofs.EligibleRouting | batchprocessor.py:80-99 | A picked file is converted exactly when it has an extension and the format string names a known format other than the file's own. |
| DispatchProofs.OutputPathSplits | batchprocessor.py:86 | The rewritten output path splits into the input's stem and `.` plus the lower-cased format. |
| DispatchProofs.TaskOutputSplits | batchprocessor.py:86-99 | Every submitted task's output path has the input's stem and the target format's lower-case extension. |
| DispatchProofs.UnknownFormatSubmitsNothing | batchprocessor.py:88-99 | A format string other than exactly `CSV`, `JSON` or `XML` (`json`, say) submits nothing. |

## Left out

- File dialogs, message boxes, `print` and the whole of `GUI.py` are user interface. The model treats each handler's successful path as
  returning the written value and every exception as a failure result.
- Reading and writing files, `os.listdir`, and partial output files left by a failed conversion are I/O. The folder listing is a parameter of
  `Dispatch.BatchConvert`.
- The thread pool is left out because it is concurrency, and each task is
  independent. `Dispatch.BatchConvert` returns the tasks in submission
  order instead of running them.
- CSV tokenising and quoting, XML parsing and serialisation, and JSON text
  formatting are foreign library code. The model works on the parsed
  values. For XML writing it keeps what the writer refuses, and what it
  writes for a string, a missing text and a falsy cell.
- Floating-point JSON numbers are left out. `JNum` holds integers.
- Tail text is left out. No converter reads or writes it.
- A namespaced tag or attribute name is kept as the plain string `{uri}local`; only the check that a `{` is closed is modelled. The prefixes the writer makes up for such names and the `xmlns` declarations it adds are left out, so `Converter.Write` says whether the writer succeeds but not the exact text of a namespaced document.
- JsonValues.Iterate: `map` keeps no key order, so a dict with two or more keys is treated as not iterable. Python would visit its keys.
- Batch.JsonToCsv: a document or row that is a dict with two or more keys fails here. Python would write its keys.
- Batch.IterRows: the same narrowing as `Batch.JsonToCsv`, for the rows it iterates.
- Converter.DictToXml: when the writer finds several faults it reports one `NotSerialisable`, without saying which fault it met first.
- Converter.Write: the text Python's `str` gives a list or dict attribute value is the parameter `show`, because it depends on dict key order.
- Converter.DictToXml: a `None` tag, which ElementTree writes by dropping the element and keeping its content, is treated as a writer error.
- `str.lower` is modelled on ASCII letters only. Extensions are compared with three ASCII literals, so the routing does not depend on other letters.

## Findings

| source | as written | input that shows it | evidently intended | confidence | as-written member | corrected member |
|---|---|---|---|---|---|---|
| batchprocessor.py:69 | `json_to_xml` indexes the loaded document with `"rows"`, but `csv_to_json` (batchprocessor.py:40) writes a bare list of lists | any table, e.g. the empty one: CSV to JSON gives `[]`, and `[]["rows"]` raises | a `.json` written by the batch CSV converter converts to XML like the CSV itself | medium, not executed | BatchProofs.CsvJsonXmlFails | BatchProofs.EitherShapeToXml |
| batchprocessor.py:50 | `json_to_csv` hands the loaded document to `writerows` with no shape check, but `xml_to_json` (batchprocessor.py:58) writes a dict `{"rows": ...}` | any tree: XML to JSON gives `{"rows": [...]}`, and `writerows` iterates its key and writes the row `r,o,w,s` | a `.json` written by the batch XML converter converts to the CSV that XML to CSV gives | medium, not executed | BatchProofs.XmlJsonCsvWritesKey | BatchProofs.EitherShapeToCsv |

=== FILE: batch.dfy ===
/** The data transformations inside the batch processor's six file
    converters, with the file reads and writes taken away. Its XML <-> JSON
    pair uses its own JSON shape, `{"rows": [[...], ...]}`, rather than the
    element dicts of the interactive converter. */
module Batch {
  import opened Results
  import opened JsonValues
  import opened XmlTree
  import opened Tables

  /** `csv_to_xml`: a `<rows>` root with one `<row>` per table row and one
      `<cell>` per cell, the text being the cell value (`cell_value if
      cell_value else ""`, which is the value itself for every string). */
  function CsvToXml(t: Table): (root: Node)
    ensures root.tag == "rows" && root.attrs == map[] && root.text == None
    ensures |root.children| == |t|
    ensures forall i :: 0 <= i < |t| ==>
              && root.children[i].tag == "row"
              && root.children[i].attrs == map[]
              && root.children[i].text == None
              && |root.children[i].children| == |t[i]|
    ensures forall i, j :: 0 <= i < |t| && 0 <= j < |t[i]| ==>
              root.children[i].children[j] == Node("cell", map[], Some(t[i][j]), [])
  {
    Node("rows", map[], None,
         seq(|t|, i requires 0 <= i < |t| =>
           Node("row", map[], None,
                seq(|t[i]|, j requires 0 <= j < |t[i]| =>
                  Node("cell", map[], Some(if t[i][j] != "" then t[i][j] else ""), [])))))
  }

  /** `xml_to_csv`: for each direct `<row>` child of the root, in order, the
      texts of its direct `<cell>` children, absent text as `""`. */
  function XmlToCsv(root: Node): (t: Table)
    ensures |t| == |FindAll(root.children, "row")|
    ensures forall i :: 0 <= i < |t| ==>
              |t[i]| == |FindAll(FindAll(root.children, "row")[i].children, "cell")|
    ensures forall i, j :: 0 <= i < |t| && 0 <= j < |t[i]| ==>
              t[i][j] == TextOrEmpty(FindAll(FindAll(root.children, "row")[i].children, "cell")[j].text)
  {
    var rows := FindAll(root.children, "row");
    seq(|rows|, i requires 0 <= i < |rows| =>
      var cells := FindAll(rows[i].children, "cell");
      seq(|cells|, j requires 0 <= j < |cells| => if cells[j].text.Some? then cells[j].text.value else ""))
  }

  /** `csv_to_json`: the table dumped as a list of lists of strings. */
  function CsvToJson(t: Table): (j: Json)
    ensures IsListOfLists(j) && Rows(j) == Lift(t)
  {
    JArr(seq(|t|, i requires 0 <= i < |t| =>
      JArr(seq(|t[i]|, k requires 0 <= k < |t[i]| => JStr(t[i][k])))))
  }

  /** The items of one row: `Iterate`, with a non-iterable value raising. */
  function RowItems(row: Json): (r: Result<seq<Json>>)
    ensures r.Fail? <==> Iterate(row).None?
    ensures r.Ok? ==> Iterate(row) == Some(r.value)
    ensures r.Fail? ==> r.error == WrongType
  {
    match Iterate(row)
    case None => Fail(WrongType)
    case Some(cells) => Ok(cells)
  }

  /** The rows a Python loop of loops visits: each item of `rows` is itself
      iterated; a value that cannot be iterated, at either level, raises. */
  function IterRows(rows: Json): (r: Result<Grid>)
    ensures IsListOfLists(rows) ==> r == Ok(Rows(rows))
    ensures rows.JNull? || rows.JBool? || rows.JNum? ==> r == Fail(WrongType)
    ensures rows.JArr? && (exists i :: 0 <= i < |rows.items| && Iterate(rows.items[i]).None?) ==> r == Fail(WrongType)
    ensures r.Ok? ==> Iterate(rows).Some? && |r.value| == |Iterate(rows).value|
    ensures r.Ok? ==> forall i :: 0 <= i < |r.value| ==> Iterate(Iterate(rows).value[i]) == Some(r.value[i])
    ensures r.Fail? ==> r.error == WrongType
  {
    match Iterate(rows)
    case None => Fail(WrongType)
    case Some(items) =>
      var steps := seq(|items|, i requires 0 <= i < |items| => RowItems(items[i]));
      var r := AllOk(steps);
      assert forall i :: 0 <= i < |items| ==> (steps[i].Fail? <==> Iterate(items[i]).None?);
      assert IsListOfLists(rows) ==> r.Ok? && r.value == Rows(rows);
      r
  }

  /** `json_to_csv`: `writer.writerows(data)` on whatever was loaded, with no
      shape check: every item of the document is written as a row, every
      item of a row as a field. */
  function JsonToCsv(data: Json): (r: Result<Grid>)
    ensures IsListOfLists(data) ==> r == Ok(Rows(data))
    ensures r.Ok? ==> Iterate(data).Some? && |r.value| == |Iterate(data).value|
    ensures r.Ok? ==> forall i :: 0 <= i < |r.value| ==> Iterate(Iterate(data).value[i]) == Some(r.value[i])
    ensures r.Fail? <==> Iterate(data).None? || exists i :: 0 <= i < |Iterate(data).value| && Iterate(Iterate(data).value[i]).None?
  {
    IterRows(data)
  }

  /** `cell.text` as a JSON value: absent text becomes `null`. */
  function TextJson(text: Option<string>): Json {
    match text
    case Some(s) => JStr(s)
    case None => JNull
  }

  /** `xml_to_json`: `{"rows": [...]}` holding, for each direct `<row>` child
      of the root, the raw texts of its direct `<cell>` children, with no
      default: an absent text is written as `null`. */
  function XmlToJson(root: Node): (j: Json)
    ensures j.JObj? && j.fields.Keys == {"rows"} && IsListOfLists(j.fields["rows"])
    ensures |j.fields["rows"].items| == |FindAll(root.children, "row")|
    ensures forall i :: 0 <= i < |j.fields["rows"].items| ==>
              var cells := FindAll(FindAll(root.children, "row")[i].children, "cell");
              && |j.fields["rows"].items[i].items| == |cells|
              && forall k :: 0 <= k < |cells| ==>
                   && (j.fields["rows"].items[i].items[k] == JNull <==> cells[k].text == None)
                   && (cells[k].text.Some? ==> j.fields["rows"].items[i].items[k] == JStr(cells[k].text.value))
  {
    var rows := FindAll(root.children, "row");
    JObj(map["rows" := JArr(seq(|rows|, i requires 0 <= i < |rows| =>
      var cells := FindAll(rows[i].children, "cell");
      JArr(seq(|cells|, k requires 0 <= k < |cells| => TextJson(cells[k].text)))))])
  }

  /** `json_to_xml`: reads `data["rows"]` (a dict is required and the key
      has no default), iterates each row, and gives each cell the text
      `cell if cell else ""`; the tree is the `rows`/`row`/`cell` tree of the
      resulting table. Iteration faults are met while the tree is built,
      before any unwritable cell is met by the writer. */
  function JsonToXml(data: Json): (r: Result<Node>)
    ensures !data.JObj? ==> r == Fail(WrongType)
    ensures data.JObj? && "rows" !in data.fields ==> r == Fail(MissingKey("rows"))
    ensures data.JObj? && "rows" in data.fields && IsListOfLists(data.fields["rows"]) ==>
              (r.Ok? <==> CellTexts(Rows(data.fields["rows"])).Ok?)
    ensures data.JObj? && "rows" in data.fields && IsListOfLists(data.fields["rows"]) && r.Ok? ==>
              r.value == CsvToXml(CellTexts(Rows(data.fields["rows"])).value)
    ensures data.JObj? && "rows" in data.fields && IterRows(data.fields["rows"]).Fail? ==> r == Fail(WrongType)
    ensures data.JObj? && "rows" in data.fields && IterRows(data.fields["rows"]).Ok? ==>
              (r.Ok? <==> CellTexts(IterRows(data.fields["rows"]).value).Ok?)
    ensures data.JObj? && "rows" in data.fields && IterRows(data.fields["rows"]).Ok? && r.Ok? ==>
              r.value == CsvToXml(CellTexts(IterRows(data.fields["rows"]).value).value)
    ensures r.Ok? ==> r.value.tag == "rows" && r.value.attrs == map[] && r.value.text == None
  {
    if !data.JObj? then Fail(WrongType)
    else if "rows" !in data.fields then Fail(MissingKey("rows"))
    else
      var grid :- IterRows(data.fields["rows"]);
      var t :- CellTexts(grid);
      Ok(CsvToXml(t))
  }

  // ------------------------------------------------------------------
  // The two JSON readers as evidently intended: each also accepts the JSON
  // shape the batch processor's other JSON writer produces.
  // ------------------------------------------------------------------

  /** `json_to_xml` accepting both the list of lists written by `csv_to_json`
      and the `{"rows": ...}` dict written by `xml_to_json`. */
  function JsonToXmlEitherShape(data: Json): (r: Result<Node>)
    ensures IsListOfLists(data) ==> (r.Ok? <==> CellTexts(Rows(data)).Ok?)
    ensures IsListOfLists(data) && r.Ok? ==> r.value == CsvToXml(CellTexts(Rows(data)).value)
    ensures !IsListOfLists(data) ==> r == JsonToXml(data)
  {
    if IsListOfLists(data) then
      var t :- CellTexts(Rows(data));
      Ok(CsvToXml(t))
    else
      JsonToXml(data)
  }

  /** `json_to_csv` writing the rows of a `{"rows": ...}` dict rather than
      the characters of its key. */
  function JsonToCsvEitherShape(data: Json): (r: Result<Grid>)
    ensures data.JObj? && "rows" in data.fields ==> r == IterRows(data.fields["rows"])
    ensures !(data.JObj? && "rows" in data.fields) ==> r == JsonToCsv(data)
  {
    if data.JObj? && "rows" in data.fields then IterRows(data.fields["rows"])
    else JsonToCsv(data)
  }
}

=== FILE: batch_proofs.dfy ===
/** Round trips of the batch processor's converters, their agreement with
    the interactive converter where the two coincide, and the two places
    where the batch processor's JSON readers do not accept what its own JSON
    writers produce. */
module BatchProofs {
  import opened Results
  import opened JsonValues
  import opened XmlTree
  import opened Tables
  import Converter
  import opened Batch

  // ------------------------------------------------------------------
  // CSV <-> XML
  // ------------------------------------------------------------------

  /** Reading back the tree built from a table gives the table. */
  lemma TableRoundTrip(t: Table)
    ensures XmlToCsv(CsvToXml(t)) == t
  {
    var root := CsvToXml(t);
    assert FindAll(root.children, "row") == root.children;
    var back := XmlToCsv(root);
    forall i | 0 <= i < |t|
      ensures back[i] == t[i]
    {
      assert FindAll(root.children[i].children, "cell") == root.children[i].children;
      assert |back[i]| == |t[i]|;
    }
  }

  /** On every table the batch `csv_to_xml` builds the same tree as the
      interactive one, although one guards with truthiness and the other
      with `is not None`. */
  lemma CsvToXmlAgrees(t: Table)
    ensures CsvToXml(t) == Converter.CsvToXml(t)
  {
    var a := CsvToXml(t);
    var b := Converter.CsvToXml(t);
    forall i | 0 <= i < |t|
      ensures a.children[i] == b.children[i]
    {
      assert a.children[i].children == b.children[i].children;
    }
  }

  /** The two `xml_to_csv` variants extract the same table from every tree. */
  lemma XmlToCsvAgrees(root: Node)
    ensures XmlToCsv(root) == Converter.XmlToCsv(root)
  {
    var a := XmlToCsv(root);
    var b := Converter.XmlToCsv(root);
    forall i | 0 <= i < |a|
      ensures a[i] == b[i]
    {
    }
  }

  /** The two `csv_to_json` variants write the same document. */
  lemma CsvToJsonAgrees(t: Table)
    ensures CsvToJson(t) == Converter.CsvToJson(t)
  {
    var a := CsvToJson(t);
    var b := Converter.CsvToJson(t);
    assert a.items == b.items by {
      forall i | 0 <= i < |t|
        ensures a.items[i] == b.items[i]
      {
      }
    }
  }

  // ------------------------------------------------------------------
  // XML <-> JSON in the {"rows": ...} shape
  // ------------------------------------------------------------------

  /** The cells of `xml_to_json`'s output, read back by the cell rule of
      `json_to_xml`, are the table `xml_to_csv` extracts: `null` becomes `""`. */
  lemma RowsCellTexts(x: Node)
    ensures CellTexts(Rows(XmlToJson(x).fields["rows"])) == Ok(XmlToCsv(x))
  {
    var g := Rows(XmlToJson(x).fields["rows"]);
    var t := XmlToCsv(x);
    var r := CellTexts(g);
    assert |g| == |t|;
    forall i, j | 0 <= i < |g| && 0 <= j < |g[i]|
      ensures CellText(g[i][j]) == Ok(t[i][j])
    {
    }
    assert r.Ok?;
    forall i | 0 <= i < |t|
      ensures r.value[i] == t[i]
    {
      assert |r.value[i]| == |t[i]|;
    }
    assert r.value == t;
  }

  /** XML -> JSON -> XML in the batch shape rebuilds the `rows`/`row`/`cell`
      structure of the input: the same rows and cells in order, absent texts
      as `""`, everything else dropped. */
  lemma RowsShapeRoundTrip(x: Node)
    ensures JsonToXml(XmlToJson(x)) == Ok(CsvToXml(XmlToCsv(x)))
  {
    RowsCellTexts(x);
  }

  // ------------------------------------------------------------------
  // Finding: CSV -> JSON -> XML always fails in the batch processor
  // ------------------------------------------------------------------

  /** `json_to_xml` indexes the loaded document with `"rows"`, so the list
      of lists `csv_to_json` writes is refused for every table, the empty
      one included. */
  lemma CsvJsonXmlFails(t: Table)
    ensures JsonToXml(CsvToJson(t)) == Fail(WrongType)
  {
  }

  /** A `rows` value that cannot be iterated is a type error, and a string
      row is iterated character by character. */
  lemma JsonToXmlIteratedRows()
    ensures JsonToXml(JObj(map["rows" := JNum(5)])) == Fail(WrongType)
    ensures JsonToXml(JObj(map["rows" := JArr([JStr("ab")])])) == Ok(CsvToXml([["a", "b"]]))
  {
    var rows := JArr([JStr("ab")]);
    var g := IterRows(rows);
    assert Iterate(rows) == Some([JStr("ab")]);
    var cells := Iterate(JStr("ab")).value;
    assert cells[0] == JStr(["ab"[0]]) && cells[1] == JStr(["ab"[1]]);
    assert ["ab"[0]] == "a" && ["ab"[1]] == "b";
    assert |cells| == 2;
    assert cells == [JStr("a"), JStr("b")];
    assert Iterate(JStr("ab")) == Some([JStr("a"), JStr("b")]);
    assert g.Ok? && |g.value| == 1 && g.value[0] == [JStr("a"), JStr("b")];
    assert g.value == [[JStr("a"), JStr("b")]];
    var t := CellTexts(g.value);
    assert t.Ok? && |t.value| == 1 && |t.value[0]| == 2;
    assert CellText(JStr("a")) == Ok("a") && CellText(JStr("b")) == Ok("b");
    assert CellText(g.value[0][0]) == Ok(t.value[0][0]) && CellText(g.value[0][1]) == Ok(t.value[0][1]);
    assert t.value[0] == ["a", "b"];
    assert t.value == [["a", "b"]];
  }

  /** Accepting both shapes, CSV -> JSON -> XML gives the tree CSV -> XML
      gives, and XML -> JSON -> XML still rebuilds the input's rows. */
  lemma EitherShapeToXml(t: Table, x: Node)
    ensures JsonToXmlEitherShape(CsvToJson(t)) == Ok(CsvToXml(t))
    ensures JsonToXmlEitherShape(XmlToJson(x)) == Ok(CsvToXml(XmlToCsv(x)))
  {
    CellTextsLift(t);
    RowsShapeRoundTrip(x);
  }

  // ------------------------------------------------------------------
  // Finding: XML -> JSON -> CSV writes the key "rows" in the batch processor
  // ------------------------------------------------------------------

  /** `writerows` iterates the loaded dict, which yields its one key, and
      writes that string as a row of its characters: whatever the XML held,
      the CSV is the single row `r,o,w,s`. */
  lemma XmlJsonCsvWritesKey(x: Node)
    ensures JsonToCsv(XmlToJson(x)) == Ok([[JStr("r"), JStr("o"), JStr("w"), JStr("s")]])
  {
    var d := XmlToJson(x);
    assert SoleKey(d.fields) == "rows";
    assert Iterate(d) == Some([JStr("rows")]);
    var chars := Iterate(JStr("rows")).value;
    assert |chars| == 4;
    assert chars[0] == JStr("r") && chars[1] == JStr("o") && chars[2] == JStr("w") && chars[3] == JStr("s");
    assert chars == [JStr("r"), JStr("o"), JStr("w"), JStr("s")];
    var r := JsonToCsv(d);
    assert r.Ok?;
    assert |r.value| == 1 && r.value[0] == chars;
    assert r.value == [chars];
  }

  /** Reading the `"rows"` entry, XML -> JSON -> CSV writes the table XML ->
      CSV writes (a `null` cell is written as an empty field), and CSV ->
      JSON -> CSV still gives the table back. */
  lemma EitherShapeToCsv(t: Table, x: Node)
    ensures JsonToCsvEitherShape(XmlToJson(x)).Ok?
    ensures CellTexts(JsonToCsvEitherShape(XmlToJson(x)).value) == Ok(XmlToCsv(x))
    ensures JsonToCsvEitherShape(CsvToJson(t)) == Ok(Lift(t))
  {
    RowsCellTexts(x);
  }
}

=== FILE: converter.dfy ===
/** The data transformations inside the interactive converter's six handlers
    and its two tree codecs, with the file dialogs, message boxes and file
    reads and writes taken away: each handler becomes a function from the
    parsed input value to the value that is written, or to the error that
    the handler reports. */
module Converter {
  import opened Results
  import opened JsonValues
  import opened XmlTree
  import opened Tables

  // ------------------------------------------------------------------
  // CSV <-> XML
  // ------------------------------------------------------------------

  /** A `<cell>` holding one cell value. */
  function CellElement(value: string): Node {
    Node("cell", map[], Some(value), [])
  }

  /** A `<row>` with one `<cell>` per value. `SubElement` leaves its text unset. */
  function RowElement(row: seq<string>): Node {
    Node("row", map[], None, seq(|row|, j requires 0 <= j < |row| => CellElement(row[j])))
  }

  /** `csv_to_xml`: the table becomes a `<rows>` root with one `<row>` per
      table row, in order, each holding one `<cell>` per cell whose text is
      the cell value; no element carries attributes. The reader never yields
      `None`, so the `None` guard never fires. */
  function CsvToXml(t: Table): (root: Node)
    ensures root.tag == "rows" && root.attrs == map[] && root.text == None
    ensures |root.children| == |t|
    ensures forall i :: 0 <= i < |t| ==>
              && root.children[i].tag == "row"
              && root.children[i].attrs == map[]
              && root.children[i].text == None
              && |root.children[i].children| == |t[i]|
    ensures forall i, j :: 0 <= i < |t| && 0 <= j < |t[i]| ==>
              root.children[i].children[j] == Node("cell", map[], Some(t[i][j]), [])
  {
    Node("rows", map[], None, seq(|t|, i requires 0 <= i < |t| => RowElement(t[i])))
  }

  /** The texts of a row's direct `<cell>` children, absent text read as `""`. */
  function RowValues(row: Node): seq<string> {
    var cells := FindAll(row.children, "cell");
    seq(|cells|, j requires 0 <= j < |cells| => TextOrEmpty(cells[j].text))
  }

  /** `xml_to_csv`: one table row per direct `<row>` child of the root, in
      order, holding the texts of that row's direct `<cell>` children, in
      order, with absent or empty text as `""`. The root's own tag is not
      looked at, and children with any other tag are skipped. */
  function XmlToCsv(root: Node): (t: Table)
    ensures |t| == |FindAll(root.children, "row")|
    ensures forall i :: 0 <= i < |t| ==>
              |t[i]| == |FindAll(FindAll(root.children, "row")[i].children, "cell")|
    ensures forall i, j :: 0 <= i < |t| && 0 <= j < |t[i]| ==>
              t[i][j] == TextOrEmpty(FindAll(FindAll(root.children, "row")[i].children, "cell")[j].text)
  {
    var rows := FindAll(root.children, "row");
    seq(|rows|, i requires 0 <= i < |rows| => RowValues(rows[i]))
  }

  // ------------------------------------------------------------------
  // CSV <-> JSON
  // ------------------------------------------------------------------

  /** `csv_to_json`: the table is dumped as a list of lists of strings. */
  function CsvToJson(t: Table): (j: Json)
    ensures IsListOfLists(j) && Rows(j) == Lift(t)
  {
    JArr(seq(|t|, i requires 0 <= i < |t| => JArr(Lift(t)[i])))
  }

  /** A dict whose `"tag"` is the string `"rows"`: `data.get("tag") == "rows"`. */
  predicate IsRowsDict(j: Json) {
    j.JObj? && Get(j.fields, "tag", JNull) == JStr("rows")
  }

  /** The dicts visited by a loop that calls `.get` on every item it
      iterates: a non-iterable value, or any item that is not a dict, raises. */
  function DictItems(j: Json): (r: Result<seq<map<string, Json>>>)
    ensures r.Fail? ==> r.error == WrongType
    ensures r.Ok? && j.JArr? ==> |r.value| == |j.items| && forall i :: 0 <= i < |j.items| ==> j.items[i] == JObj(r.value[i])
    ensures j.JArr? ==> (r.Ok? <==> forall i :: 0 <= i < |j.items| ==> j.items[i].JObj?)
    ensures r.Ok? && !j.JArr? ==> r.value == []
  {
    match Iterate(j)
    case None => Fail(WrongType)
    case Some(xs) =>
      assert !j.JArr? && xs != [] ==> xs[0].JStr?;
      if forall i :: 0 <= i < |xs| ==> xs[i].JObj? then
        Ok(seq(|xs|, i requires 0 <= i < |xs| => xs[i].fields))
      else
        Fail(WrongType)
  }

  /** `cell.get("text", "")` of every item tagged `"cell"`, in order; other
      items are skipped. */
  function CellValues(cells: seq<map<string, Json>>): (vs: seq<Json>)
    ensures |vs| <= |cells|
  {
    if cells == [] then []
    else
      (if Get(cells[0], "tag", JNull) == JStr("cell") then [Get(cells[0], "text", JStr(""))] else [])
      + CellValues(cells[1..])
  }

  /** The rows of the tree branch: one row per item tagged `"row"`, in order,
      built from its `"children"` (an empty list when missing); other items are
      skipped. */
  function TreeRows(rowDicts: seq<map<string, Json>>): (r: Result<Grid>)
    ensures r.Fail? ==> r.error == WrongType
    ensures r.Ok? ==> |r.value| <= |rowDicts|
  {
    if rowDicts == [] then Ok([])
    else if Get(rowDicts[0], "tag", JNull) == JStr("row") then
      var cells :- DictItems(Get(rowDicts[0], "children", JArr([])));
      var rest :- TreeRows(rowDicts[1..]);
      Ok([CellValues(cells)] + rest)
    else
      TreeRows(rowDicts[1..])
  }

  /** `json_to_csv`'s shape resolver. A list whose every element is a list
      is taken as the rows unchanged; a dict whose `"tag"` is `"rows"` is read
      as the serialised tree; anything else is rejected with no output. */
  function JsonToCsv(data: Json): (r: Result<Grid>)
    ensures IsListOfLists(data) ==> r == Ok(Rows(data))
    ensures r == Fail(NotRecognised) <==> !IsListOfLists(data) && !IsRowsDict(data)
    ensures r.Fail? && r.error != NotRecognised ==> r.error == WrongType
  {
    if IsListOfLists(data) then
      Ok(Rows(data))
    else if IsRowsDict(data) then
      var rowDicts :- DictItems(Get(data.fields, "children", JArr([])));
      TreeRows(rowDicts)
    else
      Fail(NotRecognised)
  }

  // ------------------------------------------------------------------
  // XML <-> JSON
  // ------------------------------------------------------------------

  /** The four keys every dict of the tree codec carries. */
  const NodeKeys: set<string> := {"tag", "attributes", "text", "children"}

  /** `dict(element.attrib)` as a JSON object of strings. */
  function AttrsJson(attrs: map<string, string>): Json {
    JObj(map k | k in attrs :: JStr(attrs[k]))
  }

  /** `xml_to_dict`: the element as `{tag, attributes, text, children}`,
      recursively, with absent or empty text as `""`. */
  function XmlToDict(n: Node): (d: Json)
    decreases n
    ensures d.JObj? && d.fields.Keys == NodeKeys
    ensures d.fields["tag"] == JStr(n.tag)
    ensures d.fields["attributes"] == AttrsJson(n.attrs)
    ensures d.fields["text"] == JStr(TextOrEmpty(n.text))
    ensures d.fields["children"].JArr? && |d.fields["children"].items| == |n.children|
    ensures forall i :: 0 <= i < |n.children| ==>
              d.fields["children"].items[i].JObj? &&
              d.fields["children"].items[i].fields.Keys == NodeKeys &&
              d.fields["children"].items[i].fields["tag"] == JStr(n.children[i].tag)
  {
    var kids := seq(|n.children|, i requires 0 <= i < |n.children| => XmlToDict(n.children[i]));
    JObj(map["tag" := JStr(n.tag),
             "attributes" := AttrsJson(n.attrs),
             "text" := JStr(TextOrEmpty(n.text)),
             "children" := JArr(kids)])
  }

  /** The element `dict_to_xml` assembles in memory. `ET.Element` stores
      whatever tag, attribute values and text it is given; only the writer
      looks at them, after the whole tree is built. */
  datatype RawElement = RawElement(tag: Json, attrs: map<string, Json>, text: Json, children: seq<RawElement>)

  /** The first pass of `dict_to_xml`: reads the four keys in order, takes
      `attributes` as the element's attribute dict (`ET.Element` rejects
      anything but a dict), and walks `children` (an empty string or empty
      dict iterates nothing). Every missing key or wrong type anywhere in
      the tree stops it here, before anything is written. */
  function Assemble(d: Json): (r: Result<RawElement>)
    decreases d
    ensures !d.JObj? ==> r == Fail(WrongType)
    ensures d.JObj? && "tag" !in d.fields ==> r == Fail(MissingKey("tag"))
    ensures d.JObj? && !(NodeKeys <= d.fields.Keys) ==> r.Fail?
    ensures r.Fail? ==> r.error.MissingKey? || r.error == WrongType
    ensures r.Ok? ==> d.JObj? && NodeKeys <= d.fields.Keys
    ensures r.Ok? ==> r.value.tag == d.fields["tag"] && r.value.text == d.fields["text"]
    ensures r.Ok? ==> d.fields["attributes"] == JObj(r.value.attrs)
    ensures r.Ok? && d.fields["children"].JArr? ==>
              |r.value.children| == |d.fields["children"].items|
    ensures r.Ok? && !d.fields["children"].JArr? ==> r.value.children == []
    ensures r.Ok? && d.fields["children"].JArr? ==>
              forall i :: 0 <= i < |d.fields["children"].items| ==>
                Assemble(d.fields["children"].items[i]) == Ok(r.value.children[i])
    ensures d.JObj? && NodeKeys <= d.fields.Keys && d.fields["attributes"].JObj? && d.fields["children"].JArr? ==>
              (r.Ok? <==> forall i :: 0 <= i < |d.fields["children"].items| ==> Assemble(d.fields["children"].items[i]).Ok?)
    ensures r.Fail? && d.JObj? && NodeKeys <= d.fields.Keys && d.fields["attributes"].JObj? && d.fields["children"].JArr? ==>
              exists i :: 0 <= i < |d.fields["children"].items| && Assemble(d.fields["children"].items[i]) == Fail(r.error)
                && forall k :: 0 <= k < i ==> Assemble(d.fields["children"].items[k]).Ok?
  {
    if !d.JObj? then Fail(WrongType)
    else
      var m := d.fields;
      if "tag" !in m then Fail(MissingKey("tag"))
      else if "attributes" !in m then Fail(MissingKey("attributes"))
      else if !m["attributes"].JObj? then Fail(WrongType)
      else if "text" !in m then Fail(MissingKey("text"))
      else if "children" !in m then Fail(MissingKey("children"))
      else
        var c := m["children"];
        if c.JArr? then
          var kids := seq(|c.items|, i requires 0 <= i < |c.items| => Assemble(c.items[i]));
          assert forall i :: 0 <= i < |c.items| ==> kids[i] == Assemble(c.items[i]);
          var children := AllOk(kids);
          if children.Fail? then Fail(children.error)
          else Ok(RawElement(m["tag"], m["attributes"].fields, m["text"], children.value))
        else if Iterate(c) == Some([]) then
          Ok(RawElement(m["tag"], m["attributes"].fields, m["text"], []))
        else
          Fail(WrongType)
  }

  /** The one-character strings `_escape_attrib` looks for with `in`. */
  const AttrEscapes: set<string> := {"&", "<", ">", "\"", "\r", "\n", "\t"}

  /** A tag or attribute name the writer can qualify: one opening `{` must
      be closed by a `}` later on (`rsplit("}", 1)` must give two parts). */
  predicate NameWritable(name: string) {
    |name| > 0 && name[0] == '{' ==> '}' in name[1..]
  }

  /** An attribute value `_escape_attrib` lets through. Its `in` tests are
      equality tests on a list's members and a dict's keys, so a list or
      dict passes unless one of them is a character it would replace, which
      then fails on `.replace`; a number, boolean or `None` fails at once. */
  predicate AttrWritable(v: Json) {
    match v
    case JStr(_) => true
    case JArr(xs) => forall i :: 0 <= i < |xs| ==> !(xs[i].JStr? && xs[i].s in AttrEscapes)
    case JObj(m) => forall k :: k in m ==> k !in AttrEscapes
    case _ => false
  }

  /** The text an attribute value is written as: a string as itself, a list
      or dict through `show`, standing for Python's `str` of it. */
  function AttrText(v: Json, show: Json -> string): string {
    if v.JStr? then v.s else show(v)
  }

  /** The attribute dict as the writer sees it. */
  function AttrsOf(a: map<string, Json>, show: Json -> string): (r: Result<map<string, string>>)
    ensures r.Ok? <==> forall k :: k in a ==> NameWritable(k) && AttrWritable(a[k])
    ensures r.Fail? ==> r.error == NotSerialisable
    ensures r.Ok? ==> r.value.Keys == a.Keys
    ensures r.Ok? ==> forall k :: k in a && a[k].JStr? ==> r.value[k] == a[k].s
    ensures r.Ok? ==> forall k :: k in a && !a[k].JStr? ==> r.value[k] == show(a[k])
  {
    if forall k :: k in a ==> NameWritable(k) && AttrWritable(a[k]) then
      Ok(map k | k in a :: AttrText(a[k], show))
    else
      Fail(NotSerialisable)
  }

  /** Everything the writer checks, over the whole tree. */
  predicate Writable(e: RawElement)
    decreases e
  {
    && e.tag.JStr? && NameWritable(e.tag.s)
    && (forall k :: k in e.attrs ==> NameWritable(k) && AttrWritable(e.attrs[k]))
    && (e.text.JStr? || !Truthy(e.text))
    && forall i :: 0 <= i < |e.children| ==> Writable(e.children[i])
  }

  /** The second pass: `tree.write` emits the assembled element, or raises
      if anything in the tree is not writable. */
  function Write(e: RawElement, show: Json -> string): (r: Result<Node>)
    decreases e
    ensures r.Fail? ==> r.error == NotSerialisable
    ensures r.Ok? ==> e.tag == JStr(r.value.tag) && r.value.attrs.Keys == e.attrs.Keys
    ensures r.Ok? ==> forall k :: k in e.attrs && e.attrs[k].JStr? ==> r.value.attrs[k] == e.attrs[k].s
    ensures r.Ok? ==> r.value.text == (if e.text.JStr? then Some(e.text.s) else None)
    ensures r.Ok? ==> forall k :: k in e.attrs && !e.attrs[k].JStr? ==> r.value.attrs[k] == show(e.attrs[k])
    ensures r.Ok? ==> |r.value.children| == |e.children|
    ensures r.Ok? ==> forall i :: 0 <= i < |e.children| ==> Write(e.children[i], show) == Ok(r.value.children[i])
  {
    if !(e.tag.JStr? && NameWritable(e.tag.s)) then Fail(NotSerialisable)
    else
      var attrs :- AttrsOf(e.attrs, show);
      var text :- TextOf(e.text);
      var kids := seq(|e.children|, i requires 0 <= i < |e.children| => Write(e.children[i], show));
      var children :- AllOk(kids);
      Ok(Node(e.tag.s, attrs, text, children))
  }

  /** `dict_to_xml` followed by `tree.write`: rebuilds an element from
      `{tag, attributes, text, children}`, then writes it. All four keys are
      required (there are no defaults). A missing key or wrong type anywhere
      in the tree is reported in preference to anything the writer would
      refuse, because the tree is complete before it is written. */
  function DictToXml(d: Json, show: Json -> string): (r: Result<Node>)
    ensures !d.JObj? ==> r == Fail(WrongType)
    ensures d.JObj? && "tag" !in d.fields ==> r == Fail(MissingKey("tag"))
    ensures d.JObj? && !(NodeKeys <= d.fields.Keys) ==> r.Fail?
    ensures r.Fail? ==> r.error != NotRecognised
    ensures r == Fail(NotSerialisable) ==> Assemble(d).Ok?
    ensures r.Ok? ==> d.JObj? && NodeKeys <= d.fields.Keys
    ensures r.Ok? ==> d.fields["tag"] == JStr(r.value.tag)
    ensures r.Ok? ==> d.fields["attributes"].JObj? && d.fields["attributes"].fields.Keys == r.value.attrs.Keys
    ensures r.Ok? ==> forall k :: k in d.fields["attributes"].fields && d.fields["attributes"].fields[k].JStr? ==>
              r.value.attrs[k] == d.fields["attributes"].fields[k].s
    ensures r.Ok? ==> forall k :: k in d.fields["attributes"].fields && !d.fields["attributes"].fields[k].JStr? ==>
              r.value.attrs[k] == show(d.fields["attributes"].fields[k])
    ensures r.Ok? ==> r.value.text == (if d.fields["text"].JStr? then Some(d.fields["text"].s) else None)
    ensures r.Ok? && d.fields["children"].JArr? ==> |r.value.children| == |d.fields["children"].items|
    ensures r.Ok? && d.fields["children"].JArr? ==>
              forall i :: 0 <= i < |d.fields["children"].items| ==>
                DictToXml(d.fields["children"].items[i], show) == Ok(r.value.children[i])
  {
    var e :- Assemble(d);
    Write(e, show)
  }

  /** `json_to_xml`'s shape resolver. A dict with a `"tag"` key, whatever its
      value, goes through `dict_to_xml`; otherwise a list of lists goes
      through the `rows`/`row`/`cell` bridge; anything else is rejected. */
  function JsonToXml(data: Json, show: Json -> string): (r: Result<Node>)
    ensures data.JObj? && "tag" in data.fields ==> r == DictToXml(data, show)
    ensures IsListOfLists(data) ==> (r.Ok? <==> CellTexts(Rows(data)).Ok?)
    ensures IsListOfLists(data) && r.Ok? ==> r.value == CsvToXml(CellTexts(Rows(data)).value)
    ensures r == Fail(NotRecognised) <==> !(data.JObj? && "tag" in data.fields) && !IsListOfLists(data)
  {
    if data.JObj? && "tag" in data.fields then
      DictToXml(data, show)
    else if IsListOfLists(data) then
      var t :- CellTexts(Rows(data));
      Ok(CsvToXml(t))
    else
      Fail(NotRecognised)
  }
}

=== FILE: converter_proofs.dfy ===
/** Round trips, consistency between the two JSON shapes, and the exact
    extent of the table/tree bridge, for the interactive converter. */
module ConverterProofs {
  import opened Results
  import opened JsonValues
  import opened XmlTree
  import opened Tables
  import opened Converter

  // ------------------------------------------------------------------
  // Shapes named by the properties
  // ------------------------------------------------------------------

  /** A tree exactly as `csv_to_xml` builds it: a bare `<rows>` root whose
      children are bare `<row>` elements whose children are bare `<cell>`
      elements that carry text and nothing else. */
  predicate Canonical(n: Node) {
    && n.tag == "rows" && n.attrs == map[] && n.text == None
    && forall i :: 0 <= i < |n.children| ==> CanonicalRow(n.children[i])
  }

  predicate CanonicalRow(r: Node) {
    && r.tag == "row" && r.attrs == map[] && r.text == None
    && forall j :: 0 <= j < |r.children| ==> CanonicalCell(r.children[j])
  }

  predicate CanonicalCell(c: Node) {
    c.tag == "cell" && c.attrs == map[] && c.text.Some? && c.children == []
  }

  /** The element with every absent text replaced by `""`: what survives a
      trip through a dict, whose `"text"` is always a string. */
  function Normalised(n: Node): (m: Node)
    decreases n
  {
    Node(n.tag, n.attrs, Some(TextOrEmpty(n.text)),
         seq(|n.children|, i requires 0 <= i < |n.children| => Normalised(n.children[i])))
  }

  /** Every tag and attribute name in the tree is one the writer can
      qualify. */
  predicate NamesWritable(n: Node)
    decreases n
  {
    && NameWritable(n.tag)
    && (forall k :: k in n.attrs ==> NameWritable(k))
    && forall i :: 0 <= i < |n.children| ==> NamesWritable(n.children[i])
  }

  /** A dict `xml_to_dict` could have produced from a writable element:
      exactly the four keys, a string tag, a dict of string attributes,
      string text, and a list of such dicts as children. */
  predicate WellFormedDict(d: Json)
    decreases d
  {
    && d.JObj?
    && d.fields.Keys == NodeKeys
    && d.fields["tag"].JStr?
    && NameWritable(d.fields["tag"].s)
    && d.fields["attributes"].JObj?
    && (forall k :: k in d.fields["attributes"].fields ==>
          NameWritable(k) && d.fields["attributes"].fields[k].JStr?)
    && d.fields["text"].JStr?
    && d.fields["children"].JArr?
    && forall i :: 0 <= i < |d.fields["children"].items| ==> WellFormedDict(d.fields["children"].items[i])
  }

  // ------------------------------------------------------------------
  // CSV <-> XML bridge
  // ------------------------------------------------------------------

  /** Reading back the tree built from a table gives the table: every row
      and every cell is found, in order, with its value. */
  lemma TableRoundTrip(t: Table)
    ensures XmlToCsv(CsvToXml(t)) == t
  {
    var root := CsvToXml(t);
    var rows := FindAll(root.children, "row");
    assert rows == root.children;
    var back := XmlToCsv(root);
    assert |back| == |t|;
    forall i | 0 <= i < |t|
      ensures back[i] == t[i]
    {
      assert FindAll(rows[i].children, "cell") == rows[i].children;
      assert |back[i]| == |t[i]|;
      forall j | 0 <= j < |t[i]|
        ensures back[i][j] == t[i][j]
      {
        assert rows[i].children[j].text == Some(t[i][j]);
      }
    }
  }

  /** The bridge is undone exactly on canonical trees: rebuilding the tree
      from its extracted table gives the tree back if and only if it has the
      `rows`/`row`/`cell` shape with no attributes and every cell carrying
      text. */
  lemma BridgeRestoresExactlyCanonical(n: Node)
    ensures CsvToXml(XmlToCsv(n)) == n <==> Canonical(n)
  {
    var t := XmlToCsv(n);
    var back := CsvToXml(t);
    assert Canonical(back) by {
      forall i | 0 <= i < |back.children|
        ensures CanonicalRow(back.children[i])
      {
        assert |back.children[i].children| == |t[i]|;
      }
    }
    if Canonical(n) {
      var rows := FindAll(n.children, "row");
      assert rows == n.children;
      assert |back.children| == |n.children|;
      forall i | 0 <= i < |n.children|
        ensures back.children[i] == n.children[i]
      {
        var r := n.children[i];
        assert CanonicalRow(r);
        assert FindAll(r.children, "cell") == r.children;
        assert |back.children[i].children| == |r.children|;
        forall j | 0 <= j < |r.children|
          ensures back.children[i].children[j] == r.children[j]
        {
          assert CanonicalCell(r.children[j]);
        }
      }
    }
  }

  /** Extraction looks only at the direct `<row>` children: the root's own
      tag, attributes and text do not matter, and a child with another tag
      is skipped wherever it stands. */
  lemma XmlToCsvSkipsForeign(tag: string, attrs: map<string, string>, text: Option<string>,
                             pre: seq<Node>, other: Node, post: seq<Node>)
    requires other.tag != "row"
    ensures XmlToCsv(Node(tag, attrs, text, pre + [other] + post))
            == XmlToCsv(Node("rows", map[], None, pre + post))
  {
    FindAllSkipsForeign(pre, other, post, "row");
  }

  // ------------------------------------------------------------------
  // JSON -> CSV on the two JSON shapes
  // ------------------------------------------------------------------

  /** The dicts `xml_to_dict` makes of a list of children. */
  function DictsOf(cs: seq<Node>): (ds: seq<Json>)
    ensures |ds| == |cs| && forall i :: 0 <= i < |cs| ==> ds[i] == XmlToDict(cs[i])
  {
    seq(|cs|, i requires 0 <= i < |cs| => XmlToDict(cs[i]))
  }

  /** The key/value maps of those dicts. */
  function FieldsOf(cs: seq<Node>): (fs: seq<map<string, Json>>)
    ensures |fs| == |cs| && forall i :: 0 <= i < |cs| ==> fs[i] == XmlToDict(cs[i]).fields
  {
    seq(|cs|, i requires 0 <= i < |cs| => XmlToDict(cs[i]).fields)
  }

  /** The texts of some `<cell>` elements as JSON strings, absent as `""`. */
  function TextsJson(cells: seq<Node>): (vs: seq<Json>)
    ensures |vs| == |cells| && forall j :: 0 <= j < |cells| ==> vs[j] == JStr(TextOrEmpty(cells[j].text))
  {
    seq(|cells|, j requires 0 <= j < |cells| => JStr(TextOrEmpty(cells[j].text)))
  }

  /** The JSON rows of some `<row>` elements. */
  function RowsJson(rows: seq<Node>): (g: Grid)
    ensures |g| == |rows| && forall i :: 0 <= i < |rows| ==> g[i] == TextsJson(FindAll(rows[i].children, "cell"))
  {
    seq(|rows|, i requires 0 <= i < |rows| => TextsJson(FindAll(rows[i].children, "cell")))
  }

  lemma ChildrenOfDict(n: Node)
    ensures XmlToDict(n).fields["children"] == JArr(DictsOf(n.children))
  {
  }

  lemma DictItemsOfDicts(cs: seq<Node>)
    ensures DictItems(JArr(DictsOf(cs))) == Ok(FieldsOf(cs))
  {
    var r := DictItems(JArr(DictsOf(cs)));
    assert r.Ok?;
    assert r.value == FieldsOf(cs);
  }

  lemma RowsJsonOfTable(cs: seq<Node>)
    ensures Lift(XmlToCsv(Node("rows", map[], None, cs))) == RowsJson(FindAll(cs, "row"))
  {
    var t := XmlToCsv(Node("rows", map[], None, cs));
    var g := RowsJson(FindAll(cs, "row"));
    forall i | 0 <= i < |t|
      ensures Lift(t)[i] == g[i]
    {
    }
  }

  /** The cells read from the dicts of a row's children are the texts of
      its `<cell>` children, absent text as `""`. */
  lemma {:induction false} CellValuesOfDicts(cs: seq<Node>)
    ensures CellValues(FieldsOf(cs)) == TextsJson(FindAll(cs, "cell"))
  {
    if cs != [] {
      CellValuesOfDicts(cs[1..]);
      CellValuesHead(cs);
      var rest := FindAll(cs[1..], "cell");
      if cs[0].tag == "cell" {
        assert FindAll(cs, "cell") == [cs[0]] + rest;
        TextsJsonCons(cs[0], rest);
      } else {
        assert FindAll(cs, "cell") == rest;
      }
    }
  }

  /** One step of the cell reader: a `<cell>` dict contributes its text,
      any other dict is skipped. */
  lemma CellValuesHead(cs: seq<Node>)
    requires cs != []
    ensures CellValues(FieldsOf(cs)) ==
              (if cs[0].tag == "cell" then [JStr(TextOrEmpty(cs[0].text))] else [])
              + CellValues(FieldsOf(cs[1..]))
  {
    var fs := FieldsOf(cs);
    assert fs[1..] == FieldsOf(cs[1..]);
    assert Get(fs[0], "tag", JNull) == JStr(cs[0].tag);
    assert Get(fs[0], "text", JStr("")) == JStr(TextOrEmpty(cs[0].text));
  }

  /** The rows read from the dicts of the root's children are the rows
      extracted from its `<row>` children. */
  lemma {:induction false} TreeRowsOfDicts(cs: seq<Node>)
    ensures TreeRows(FieldsOf(cs)) == Ok(RowsJson(FindAll(cs, "row")))
  {
    if cs != [] {
      var rest := FindAll(cs[1..], "row");
      TreeRowsOfDicts(cs[1..]);
      TreeRowsHead(cs, RowsJson(rest));
      if cs[0].tag == "row" {
        assert FindAll(cs, "row") == [cs[0]] + rest;
        RowsJsonCons(cs[0], rest);
      } else {
        assert FindAll(cs, "row") == rest;
      }
    }
  }

  /** One step of the tree branch: a `<row>` dict contributes its cells, any
      other dict is skipped. */
  lemma TreeRowsHead(cs: seq<Node>, g: Grid)
    requires cs != []
    requires TreeRows(FieldsOf(cs[1..])) == Ok(g)
    ensures cs[0].tag == "row" ==>
              TreeRows(FieldsOf(cs)) == Ok([TextsJson(FindAll(cs[0].children, "cell"))] + g)
    ensures cs[0].tag != "row" ==> TreeRows(FieldsOf(cs)) == Ok(g)
  {
    var fs := FieldsOf(cs);
    assert fs[1..] == FieldsOf(cs[1..]);
    assert Get(fs[0], "tag", JNull) == JStr(cs[0].tag);
    if cs[0].tag == "row" {
      RowOfDict(cs[0]);
    }
  }

  lemma TextsJsonCons(c: Node, rest: seq<Node>)
    ensures TextsJson([c] + rest) == [JStr(TextOrEmpty(c.text))] + TextsJson(rest)
  {
    var s := [c] + rest;
    forall i | 0 < i < |s|
      ensures TextsJson(s)[i] == TextsJson(rest)[i - 1]
    {
      assert s[i] == rest[i - 1];
    }
  }

  lemma RowsJsonCons(r: Node, rest: seq<Node>)
    ensures RowsJson([r] + rest) == [TextsJson(FindAll(r.children, "cell"))] + RowsJson(rest)
  {
    var s := [r] + rest;
    forall i | 0 < i < |s|
      ensures RowsJson(s)[i] == RowsJson(rest)[i - 1]
    {
      assert s[i] == rest[i - 1];
    }
  }

  /** The cells the tree branch reads from one `<row>` element's dict. */
  lemma RowOfDict(r: Node)
    ensures DictItems(Get(XmlToDict(r).fields, "children", JArr([]))) == Ok(FieldsOf(r.children))
    ensures CellValues(FieldsOf(r.children)) == TextsJson(FindAll(r.children, "cell"))
  {
    ChildrenOfDict(r);
    DictItemsOfDicts(r.children);
    CellValuesOfDicts(r.children);
  }

  /** XML -> JSON -> CSV agrees with XML -> CSV when the root is `<rows>`;
      with any other root tag the JSON resolver rejects what `xml_to_csv`
      would have accepted. */
  lemma XmlJsonCsvAgree(n: Node)
    ensures n.tag == "rows" ==> JsonToCsv(XmlToDict(n)) == Ok(Lift(XmlToCsv(n)))
    ensures n.tag != "rows" ==> JsonToCsv(XmlToDict(n)) == Fail(NotRecognised)
  {
    var d := XmlToDict(n);
    assert !IsListOfLists(d);
    if n.tag == "rows" {
      assert IsRowsDict(d);
      ChildrenOfDict(n);
      DictItemsOfDicts(n.children);
      TreeRowsOfDicts(n.children);
      RowsJsonOfTable(n.children);
      assert XmlToCsv(n) == XmlToCsv(Node("rows", map[], None, n.children));
    }
  }

  /** For any table, `json_to_csv` reads the same rows from the JSON list
      `csv_to_json` writes as from the dict `xml_to_dict` makes of the tree
      `csv_to_xml` builds, and both are the table itself. */
  lemma TableShapesAgree(t: Table)
    ensures JsonToCsv(CsvToJson(t)) == Ok(Lift(t))
    ensures JsonToCsv(XmlToDict(CsvToXml(t))) == Ok(Lift(t))
  {
    XmlJsonCsvAgree(CsvToXml(t));
    TableRoundTrip(t);
  }

  // ------------------------------------------------------------------
  // JSON -> CSV on any dict tree
  // ------------------------------------------------------------------

  /** A `cell` item contributes its `"text"`, whatever its type, and `""`
      when it has none; an item with any other tag, or none, contributes
      nothing. */
  lemma CellValuesOne(c: map<string, Json>)
    ensures Get(c, "tag", JNull) == JStr("cell") && "text" in c ==> CellValues([c]) == [c["text"]]
    ensures Get(c, "tag", JNull) == JStr("cell") && "text" !in c ==> CellValues([c]) == [JStr("")]
    ensures Get(c, "tag", JNull) != JStr("cell") ==> CellValues([c]) == []
  {
    assert [c][1..] == [];
  }

  /** The cell reader reads each item on its own: the cells of two runs of
      items are the cells of the first followed by those of the second. */
  lemma {:induction false} CellValuesAppend(a: seq<map<string, Json>>, b: seq<map<string, Json>>)
    ensures CellValues(a + b) == CellValues(a) + CellValues(b)
  {
    if a == [] {
      assert a + b == b;
    } else {
      var c := a[0];
      var head := if Get(c, "tag", JNull) == JStr("cell") then [Get(c, "text", JStr(""))] else [];
      assert (a + b)[0] == c;
      assert (a + b)[1..] == a[1..] + b;
      CellValuesAppend(a[1..], b);
      calc {
        CellValues(a + b);
        head + CellValues(a[1..] + b);
        head + (CellValues(a[1..]) + CellValues(b));
        (head + CellValues(a[1..])) + CellValues(b);
        CellValues(a) + CellValues(b);
      }
    }
  }

  /** An item not tagged `"cell"` may be removed from anywhere in a row
      without changing what is read. */
  lemma CellValuesSkipsForeign(a: seq<map<string, Json>>, x: map<string, Json>, b: seq<map<string, Json>>)
    requires Get(x, "tag", JNull) != JStr("cell")
    ensures CellValues(a + [x] + b) == CellValues(a + b)
  {
    CellValuesAppend(a + [x], b);
    CellValuesAppend(a, [x]);
    CellValuesAppend(a, b);
    CellValuesOne(x);
  }

  /** An item not tagged `"row"` may be removed from anywhere among the
      root's children without changing what is read, failure included. */
  lemma {:induction false} TreeRowsSkipsForeign(a: seq<map<string, Json>>, x: map<string, Json>, b: seq<map<string, Json>>)
    requires Get(x, "tag", JNull) != JStr("row")
    ensures TreeRows(a + [x] + b) == TreeRows(a + b)
  {
    if a == [] {
      assert a + [x] + b == [x] + b;
      assert ([x] + b)[1..] == b;
      assert a + b == b;
    } else {
      assert (a + [x] + b)[0] == a[0] == (a + b)[0];
      assert (a + [x] + b)[1..] == a[1..] + [x] + b;
      assert (a + b)[1..] == a[1..] + b;
      TreeRowsSkipsForeign(a[1..], x, b);
    }
  }

  /** One item of the root's children: a `row` item is one row, the cells
      read from the dicts its `"children"` (default `[]`) iterate to, and a
      type error when those are not all dicts; any other item is no row. */
  lemma TreeRowsOne(r: map<string, Json>)
    ensures Get(r, "tag", JNull) == JStr("row") && DictItems(Get(r, "children", JArr([]))).Ok? ==>
              TreeRows([r]) == Ok([CellValues(DictItems(Get(r, "children", JArr([]))).value)])
    ensures Get(r, "tag", JNull) == JStr("row") && DictItems(Get(r, "children", JArr([]))).Fail? ==>
              TreeRows([r]) == Fail(WrongType)
    ensures Get(r, "tag", JNull) != JStr("row") ==> TreeRows([r]) == Ok([])
  {
    assert [r][1..] == [];
    assert TreeRows([r][1..]) == Ok([]);
    var cells := DictItems(Get(r, "children", JArr([])));
    if Get(r, "tag", JNull) == JStr("row") && cells.Ok? {
      assert TreeRows([r]) == Ok([CellValues(cells.value)] + []);
      assert [CellValues(cells.value)] + [] == [CellValues(cells.value)];
    }
  }

  /** The rows of two runs of items are the first run's rows followed by
      the second's; a failure in the first run is reported before anything
      in the second is looked at. */
  lemma {:induction false} TreeRowsAppend(a: seq<map<string, Json>>, b: seq<map<string, Json>>)
    ensures TreeRows(a).Fail? ==> TreeRows(a + b) == TreeRows(a)
    ensures TreeRows(a).Ok? && TreeRows(b).Fail? ==> TreeRows(a + b) == TreeRows(b)
    ensures TreeRows(a).Ok? && TreeRows(b).Ok? ==> TreeRows(a + b) == Ok(TreeRows(a).value + TreeRows(b).value)
  {
    if a == [] {
      assert a + b == b;
      assert TreeRows(a) == Ok([]);
      assert TreeRows(b).Ok? ==> [] + TreeRows(b).value == TreeRows(b).value;
    } else {
      assert (a + b)[0] == a[0];
      assert (a + b)[1..] == a[1..] + b;
      TreeRowsAppend(a[1..], b);
      if TreeRows(a).Ok? && TreeRows(b).Ok? && Get(a[0], "tag", JNull) == JStr("row") {
        var cells := DictItems(Get(a[0], "children", JArr([])));
        assert cells.Ok?;
        var row := CellValues(cells.value);
        var rest := TreeRows(a[1..]).value;
        assert TreeRows(a) == Ok([row] + rest);
        assert TreeRows(a[1..] + b) == Ok(rest + TreeRows(b).value);
        assert TreeRows(a + b) == Ok([row] + (rest + TreeRows(b).value));
        assert [row] + (rest + TreeRows(b).value) == ([row] + rest) + TreeRows(b).value;
      }
    }
  }

  /** On any dict tagged `"rows"`, `json_to_csv` reads the rows of the
      dicts its `"children"` (default `[]`) iterate to, and fails with a
      type error when those are not all dicts. */
  lemma JsonToCsvRowsDict(data: Json)
    requires IsRowsDict(data)
    ensures DictItems(Get(data.fields, "children", JArr([]))).Ok? ==>
              JsonToCsv(data) == TreeRows(DictItems(Get(data.fields, "children", JArr([]))).value)
    ensures DictItems(Get(data.fields, "children", JArr([]))).Fail? ==> JsonToCsv(data) == Fail(WrongType)
  {
  }

  /** A hand-written `rows` dict with one row of a cell with text and a
      cell without reads as the row `y,`. */
  lemma JsonToCsvHandWritten()
    ensures
      var y := map["tag" := JStr("cell"), "text" := JStr("y")];
      var e := map["tag" := JStr("cell")];
      var row := map["tag" := JStr("row"), "children" := JArr([JObj(y), JObj(e)])];
      JsonToCsv(JObj(map["tag" := JStr("rows"), "children" := JArr([JObj(row)])])) == Ok([[JStr("y"), JStr("")]])
  {
    var y := map["tag" := JStr("cell"), "text" := JStr("y")];
    var e := map["tag" := JStr("cell")];
    var row := map["tag" := JStr("row"), "children" := JArr([JObj(y), JObj(e)])];
    var data := JObj(map["tag" := JStr("rows"), "children" := JArr([JObj(row)])]);
    JsonToCsvRowsDict(data);
    var rows := DictItems(JArr([JObj(row)]));
    assert JArr([JObj(row)]).items[0].JObj?;
    assert rows.Ok? && |rows.value| == 1 && JObj(rows.value[0]) == JObj(row);
    assert rows.value == [row];
    var cells := DictItems(JArr([JObj(y), JObj(e)]));
    assert JArr([JObj(y), JObj(e)]).items[0].JObj? && JArr([JObj(y), JObj(e)]).items[1].JObj?;
    assert cells.Ok? && |cells.value| == 2;
    assert JObj(cells.value[0]) == JObj(y) && JObj(cells.value[1]) == JObj(e);
    assert cells.value == [y, e];
    CellValuesOne(y);
    CellValuesOne(e);
    CellValuesAppend([y], [e]);
    assert [y] + [e] == [y, e];
    assert CellValues([y, e]) == [JStr("y"), JStr("")];
    assert IsRowsDict(data);
    assert JsonToCsv(data) == TreeRows([row]);
    TreeRowsOne(row);
  }

  /** A `row` item with no `"children"` is an empty row. */
  lemma RowWithoutChildren(r: map<string, Json>, rest: seq<map<string, Json>>)
    requires Get(r, "tag", JNull) == JStr("row") && "children" !in r
    ensures TreeRows(rest).Ok? ==> TreeRows([r] + rest) == Ok([[]] + TreeRows(rest).value)
    ensures TreeRows(rest).Fail? ==> TreeRows([r] + rest) == TreeRows(rest)
  {
    assert ([r] + rest)[1..] == rest;
    assert DictItems(JArr([])) == Ok([]);
  }

  /** A `rows` dict with no `"children"` has no rows. */
  lemma RowsDictWithoutChildren(m: map<string, Json>)
    requires Get(m, "tag", JNull) == JStr("rows") && "children" !in m
    ensures JsonToCsv(JObj(m)) == Ok([])
  {
    assert !IsListOfLists(JObj(m));
    assert DictItems(JArr([])) == Ok([]);
  }

  /** Inserting a dict among the items of a list inserts its fields at the
      same place among the dicts visited, and changes nothing else. */
  lemma DictItemsInsert(a: seq<Json>, x: Json, b: seq<Json>)
    requires x.JObj?
    ensures DictItems(JArr(a + [x] + b)).Ok? <==> DictItems(JArr(a + b)).Ok?
    ensures DictItems(JArr(a + b)).Ok? ==>
              var fs := DictItems(JArr(a + b)).value;
              DictItems(JArr(a + [x] + b)).value == fs[..|a|] + [x.fields] + fs[|a|..]
  {
    var long := a + [x] + b;
    var short := a + b;
    forall i | 0 <= i < |long|
      ensures long[i] == if i < |a| then short[i] else if i == |a| then x else short[i - 1]
    {
    }
    var r1 := DictItems(JArr(long));
    var r2 := DictItems(JArr(short));
    if r2.Ok? {
      forall i | 0 <= i < |long|
        ensures long[i].JObj?
      {
        var k := if i < |a| then i else if i == |a| then 0 else i - 1;
        assert i != |a| ==> short[k].JObj?;
      }
      var fs := r2.value[..|a|] + [x.fields] + r2.value[|a|..];
      forall i | 0 <= i < |long|
        ensures r1.value[i] == fs[i]
      {
      }
    } else {
      var i :| 0 <= i < |short| && !short[i].JObj?;
      assert !long[if i < |a| then i else i + 1].JObj?;
    }
  }

  /** A dict not tagged `"row"` may be removed from anywhere in a `rows`
      dict's children without changing what `json_to_csv` reads. */
  lemma JsonToCsvSkipsForeign(m: map<string, Json>, a: seq<Json>, x: Json, b: seq<Json>)
    requires Get(m, "tag", JNull) == JStr("rows")
    requires x.JObj? && Get(x.fields, "tag", JNull) != JStr("row")
    ensures JsonToCsv(JObj(m["children" := JArr(a + [x] + b)])) == JsonToCsv(JObj(m["children" := JArr(a + b)]))
  {
    var d1 := JObj(m["children" := JArr(a + [x] + b)]);
    var d2 := JObj(m["children" := JArr(a + b)]);
    assert IsRowsDict(d1) && IsRowsDict(d2);
    DictItemsInsert(a, x, b);
    var r2 := DictItems(JArr(a + b));
    if r2.Ok? {
      var fs := r2.value;
      assert fs == fs[..|a|] + fs[|a|..];
      TreeRowsSkipsForeign(fs[..|a|], x.fields, fs[|a|..]);
    }
  }

  // ------------------------------------------------------------------
  // Element <-> dict codec
  // ------------------------------------------------------------------

  lemma AllOkOfOks<T>(rs: seq<Result<T>>, vs: seq<T>)
    requires |rs| == |vs|
    requires forall i :: 0 <= i < |rs| ==> rs[i] == Ok(vs[i])
    ensures AllOk(rs) == Ok(vs)
  {
    var r := AllOk(rs);
    assert r.Ok?;
    assert r.value == vs;
  }

  /** The assembled element `dict_to_xml` makes of the dict of `n`. */
  function RawOf(n: Node): (e: RawElement)
    decreases n
  {
    RawElement(JStr(n.tag), map k | k in n.attrs :: JStr(n.attrs[k]), JStr(TextOrEmpty(n.text)),
               seq(|n.children|, i requires 0 <= i < |n.children| => RawOf(n.children[i])))
  }

  /** The writer succeeds on an assembled tree exactly when everything in
      it is writable, and only the writer's own error is reported. */
  lemma {:induction false} WriteOkIffWritable(e: RawElement, show: Json -> string)
    decreases e
    ensures Write(e, show).Ok? <==> Writable(e)
  {
    var kids := seq(|e.children|, i requires 0 <= i < |e.children| => Write(e.children[i], show));
    forall i | 0 <= i < |e.children|
      ensures kids[i].Ok? <==> Writable(e.children[i])
    {
      WriteOkIffWritable(e.children[i], show);
    }
  }

  /** `dict_to_xml` then `tree.write` succeeds exactly when the dict
      assembles into a tree and that tree is writable. */
  lemma DictToXmlOk(d: Json, show: Json -> string)
    ensures DictToXml(d, show).Ok? <==> Assemble(d).Ok? && Writable(Assemble(d).value)
  {
    if Assemble(d).Ok? {
      WriteOkIffWritable(Assemble(d).value, show);
    }
  }

  /** A missing key in a later sibling is reported even when an earlier
      sibling has a tag the writer would refuse. */
  lemma StructuralFaultBeforeWriterFault(show: Json -> string)
    ensures
      var c0 := JObj(map["tag" := JNum(1), "attributes" := JObj(map[]), "text" := JStr(""), "children" := JArr([])]);
      var c1 := JObj(map["attributes" := JObj(map[])]);
      var d := JObj(map["tag" := JStr("a"), "attributes" := JObj(map[]), "text" := JStr(""), "children" := JArr([c0, c1])]);
      DictToXml(d, show) == Fail(MissingKey("tag"))
  {
    var c0 := JObj(map["tag" := JNum(1), "attributes" := JObj(map[]), "text" := JStr(""), "children" := JArr([])]);
    var c1 := JObj(map["attributes" := JObj(map[])]);
    var none: seq<Result<RawElement>> := [];
    assert AllOk(none) == Ok([]);
    assert Assemble(c0) == Ok(RawElement(JNum(1), map[], JStr(""), []));
    assert Write(RawElement(JNum(1), map[], JStr(""), []), show) == Fail(NotSerialisable);
    assert Assemble(c1) == Fail(MissingKey("tag"));
    var items := [c0, c1];
    var rs := seq(|items|, i requires 0 <= i < |items| => Assemble(items[i]));
    assert rs == [Assemble(c0), Assemble(c1)];
    assert AllOk(rs) == Fail(MissingKey("tag"));
    var d := JObj(map["tag" := JStr("a"), "attributes" := JObj(map[]), "text" := JStr(""), "children" := JArr(items)]);
    assert Assemble(d) == Fail(MissingKey("tag"));
  }

  /** There are no defaults below the root either: a child without
      `"text"` stops the conversion with a missing key. */
  lemma NestedMissingKey(show: Json -> string)
    ensures
      var b := JObj(map["tag" := JStr("b"), "attributes" := JObj(map[]), "children" := JArr([])]);
      var d := JObj(map["tag" := JStr("a"), "attributes" := JObj(map[]), "text" := JStr(""), "children" := JArr([b])]);
      DictToXml(d, show) == Fail(MissingKey("text"))
  {
  }

  /** The dict of an element assembles into the element's own tag,
      attributes, text (absent as `""`) and children. */
  lemma {:induction false} AssembleOfDict(n: Node)
    decreases n
    ensures Assemble(XmlToDict(n)) == Ok(RawOf(n))
  {
    var kids := XmlToDict(n).fields["children"].items;
    var rs := seq(|kids|, i requires 0 <= i < |kids| => Assemble(kids[i]));
    var vs := seq(|n.children|, i requires 0 <= i < |n.children| => RawOf(n.children[i]));
    forall i | 0 <= i < |kids|
      ensures rs[i] == Ok(vs[i])
    {
      AssembleOfDict(n.children[i]);
    }
    AllOkOfOks(rs, vs);
  }

  /** Writing the assembled element gives the element back, with absent
      texts as `""`, when its names are writable. */
  lemma {:induction false} WriteOfRaw(n: Node, show: Json -> string)
    requires NamesWritable(n)
    decreases n
    ensures Write(RawOf(n), show) == Ok(Normalised(n))
  {
    var e := RawOf(n);
    var rs := seq(|e.children|, i requires 0 <= i < |e.children| => Write(e.children[i], show));
    var vs := seq(|n.children|, i requires 0 <= i < |n.children| => Normalised(n.children[i]));
    forall i | 0 <= i < |n.children|
      ensures rs[i] == Ok(vs[i])
    {
      WriteOfRaw(n.children[i], show);
    }
    AllOkOfOks(rs, vs);
    var a := AttrsOf(e.attrs, show);
    assert a.Ok?;
    assert a.value == n.attrs;
  }

  /** The writer refuses the assembled element when some tag or attribute
      name in it is not writable. */
  lemma {:induction false} WriteOfRawRefused(n: Node, show: Json -> string)
    requires !NamesWritable(n)
    decreases n
    ensures Write(RawOf(n), show) == Fail(NotSerialisable)
  {
    var e := RawOf(n);
    if NameWritable(n.tag) && forall k :: k in n.attrs ==> NameWritable(k) {
      var rs := seq(|e.children|, i requires 0 <= i < |e.children| => Write(e.children[i], show));
      var i :| 0 <= i < |n.children| && !NamesWritable(n.children[i]);
      WriteOfRawRefused(n.children[i], show);
      assert rs[i].Fail?;
      assert AllOk(rs).Fail?;
    } else if NameWritable(n.tag) {
      assert AttrsOf(e.attrs, show).Fail?;
    }
  }

  /** Element -> dict -> element gives the element back, except that an
      absent text comes back as `""`, whenever the writer accepts its names;
      otherwise the writer refuses it. */
  lemma ElementRoundTrip(n: Node, show: Json -> string)
    ensures NamesWritable(n) ==> DictToXml(XmlToDict(n), show) == Ok(Normalised(n))
    ensures !NamesWritable(n) ==> DictToXml(XmlToDict(n), show) == Fail(NotSerialisable)
  {
    AssembleOfDict(n);
    if NamesWritable(n) {
      WriteOfRaw(n, show);
    } else {
      WriteOfRawRefused(n, show);
    }
  }

  /** The element a dict of the codec's shape describes. */
  function NodeOfDict(d: Json): (n: Node)
    requires WellFormedDict(d)
    decreases d
  {
    var m := d.fields;
    var attrs := m["attributes"].fields;
    var kids := m["children"].items;
    Node(m["tag"].s, map k | k in attrs :: attrs[k].s, Some(m["text"].s),
         seq(|kids|, i requires 0 <= i < |kids| => NodeOfDict(kids[i])))
  }

  /** The element a dict of the codec's shape describes has writable names
      and text everywhere, and `xml_to_dict` gives the dict back from it. */
  lemma {:induction false} NodeOfDictInverse(d: Json)
    requires WellFormedDict(d)
    decreases d
    ensures XmlToDict(NodeOfDict(d)) == d
    ensures NamesWritable(NodeOfDict(d))
    ensures Normalised(NodeOfDict(d)) == NodeOfDict(d)
  {
    var m := d.fields;
    var kids := m["children"].items;
    var n := NodeOfDict(d);
    forall i | 0 <= i < |kids|
      ensures XmlToDict(n.children[i]) == kids[i]
      ensures NamesWritable(n.children[i])
      ensures Normalised(n.children[i]) == n.children[i]
    {
      NodeOfDictInverse(kids[i]);
    }
    var back := XmlToDict(n);
    assert back.fields["attributes"] == m["attributes"] by {
      assert AttrsJson(n.attrs).fields == m["attributes"].fields;
    }
    assert back.fields["children"] == m["children"] by {
      assert back.fields["children"].items == kids;
    }
    assert back.fields == m;
    assert Normalised(n).children == n.children;
  }

  /** Dict -> element -> dict gives the dict back for every dict of the
      codec's shape. */
  lemma DictRoundTrip(d: Json, show: Json -> string)
    requires WellFormedDict(d)
    ensures DictToXml(d, show).Ok?
    ensures XmlToDict(DictToXml(d, show).value) == d
  {
    NodeOfDictInverse(d);
    ElementRoundTrip(NodeOfDict(d), show);
  }

  // ------------------------------------------------------------------
  // JSON -> XML on the two JSON shapes
  // ------------------------------------------------------------------

  /** CSV -> JSON -> XML builds the same tree as CSV -> XML. */
  lemma TableJsonToXml(t: Table, show: Json -> string)
    ensures JsonToXml(CsvToJson(t), show) == Ok(CsvToXml(t))
  {
    CellTextsLift(t);
  }

  /** XML -> JSON -> XML gives the element back with absent texts as `""`,
      whenever the writer accepts its names. */
  lemma TreeJsonToXml(n: Node, show: Json -> string)
    ensures NamesWritable(n) ==> JsonToXml(XmlToDict(n), show) == Ok(Normalised(n))
    ensures !NamesWritable(n) ==> JsonToXml(XmlToDict(n), show) == Fail(NotSerialisable)
  {
    ElementRoundTrip(n, show);
  }
}

=== FILE: dispatch.dfy ===
/** The batch driver's decisions, without the directory listing and the
    thread pool: which names in a folder are picked up, which output path
    each file gets, and which of the six converters, if any, it is handed
    to. Paths follow POSIX `os.path` rules. */
module Dispatch {
  import opened Results

  // ------------------------------------------------------------------
  // Strings and paths
  // ------------------------------------------------------------------

  /** `str.lower()` on one character; only ASCII letters are mapped. */
  function LowerChar(c: char): char {
    if 'A' <= c <= 'Z' then (c as int + 32) as char else c
  }

  /** `str.lower()`, ASCII letters only. */
  function Lower(s: string): (r: string)
    ensures |r| == |s|
    ensures forall i :: 0 <= i < |s| ==> r[i] == LowerChar(s[i])
  {
    seq(|s|, i requires 0 <= i < |s| => LowerChar(s[i]))
  }

  /** `s.endswith(suffix)`, case-sensitive. */
  predicate EndsWith(s: string, suffix: string) {
    |suffix| <= |s| && s[|s| - |suffix|..] == suffix
  }

  /** The names the batch driver picks up:
      `f.endswith(('.csv', '.json', '.xml'))`, which is case-sensitive. */
  predicate Eligible(name: string) {
    EndsWith(name, ".csv") || EndsWith(name, ".json") || EndsWith(name, ".xml")
  }

  /** `os.path.join(a, b)` for two components: an absolute `b` replaces
      `a`; otherwise a `/` is put between them unless `a` is empty or already
      ends with one. */
  function Join(a: string, b: string): (p: string)
    ensures EndsWith(p, b)
    ensures |b| > 0 && b[0] == '/' ==> p == b
  {
    if |b| > 0 && b[0] == '/' then b
    else if a == "" || a[|a| - 1] == '/' then a + b
    else a + "/" + b
  }

  /** `s.rfind(c)`: the index of the last `c` in `s`, or -1. */
  function RFind(s: string, c: char): (i: int)
    ensures -1 <= i < |s|
    ensures i >= 0 ==> s[i] == c
    ensures forall k :: i < k < |s| ==> s[k] != c
  {
    if |s| == 0 then -1
    else if s[|s| - 1] == c then |s| - 1
    else RFind(s[..|s| - 1], c)
  }

  /** The last-occurrence index is the only one with its defining property. */
  lemma RFindUnique(s: string, c: char, i: int)
    requires -1 <= i < |s|
    requires i >= 0 ==> s[i] == c
    requires forall k :: i < k < |s| ==> s[k] != c
    ensures RFind(s, c) == i
  {
  }

  /** True when some character strictly between `lo` and `hi` is not a dot. */
  predicate NonDotBetween(p: string, lo: int, hi: int)
    requires -1 <= lo && hi <= |p|
  {
    exists k :: lo < k < hi && p[k] != '.'
  }

  /** `os.path.splitext` on POSIX: the extension runs from the last dot of
      the last path component to the end, unless every character of that
      component before the dot is itself a dot (`.bashrc`, `..csv`), in
      which case there is no extension. */
  function SplitExt(p: string): (r: (string, string))
    ensures r.0 + r.1 == p
    ensures r.1 != "" ==> r.1[0] == '.' && '/' !in r.1 && '.' !in r.1[1..]
    ensures r.1 != "" ==> NonDotBetween(p, RFind(p, '/'), |r.0|)
  {
    var sep := RFind(p, '/');
    var dot := RFind(p, '.');
    if dot > sep && NonDotBetween(p, sep, dot) then
      assert p[..dot] + p[dot..] == p;
      (p[..dot], p[dot..])
    else
      (p, "")
  }

  /** The output path: the input path with its extension replaced by `.`
      and the lower-cased target format
      (`os.path.splitext(file)[0] + f".{output_format.lower()}"`). */
  function OutputPath(file: string, format: string): string {
    SplitExt(file).0 + "." + Lower(format)
  }

  // ------------------------------------------------------------------
  // Routing
  // ------------------------------------------------------------------

  /** The three formats. */
  datatype Format = Csv | Json | Xml

  /** The format a lower-cased extension names. */
  function ExtensionFormat(ext: string): Option<Format> {
    if ext == ".csv" then Some(Csv)
    else if ext == ".json" then Some(Json)
    else if ext == ".xml" then Some(Xml)
    else None
  }

  /** The format a target-format string names; the match is exact, so
      `"json"` names none. */
  function TargetFormat(format: string): Option<Format> {
    if format == "CSV" then Some(Csv)
    else if format == "JSON" then Some(Json)
    else if format == "XML" then Some(Xml)
    else None
  }

  /** The driver's six-branch `elif` chain on the lower-cased extension and
      the target-format string. Exactly the six pairs of two different known
      formats reach a converter; an identity pair or an unknown extension or
      format string reaches none. */
  function Route(ext: string, format: string): (r: Option<(Format, Format)>)
    ensures r.Some? <==> (ExtensionFormat(ext).Some? && TargetFormat(format).Some?
                          && ExtensionFormat(ext) != TargetFormat(format))
    ensures r.Some? ==> r.value == (ExtensionFormat(ext).value, TargetFormat(format).value)
  {
    if ext == ".csv" && format == "XML" then Some((Csv, Xml))
    else if ext == ".csv" && format == "JSON" then Some((Csv, Json))
    else if ext == ".json" && format == "CSV" then Some((Json, Csv))
    else if ext == ".json" && format == "XML" then Some((Json, Xml))
    else if ext == ".xml" && format == "CSV" then Some((Xml, Csv))
    else if ext == ".xml" && format == "JSON" then Some((Xml, Json))
    else None
  }

  /** One submitted conversion: which converter, on which file, to which path. */
  datatype Task = Task(source: Format, target: Format, input: string, output: string)

  /** What the driver submits for one file, if anything. */
  function TaskFor(file: string, format: string): (r: Option<Task>)
    ensures r.Some? <==> Route(Lower(SplitExt(file).1), format).Some?
    ensures r.Some? ==> r.value.source != r.value.target
    ensures r.Some? ==> r.value.input == file && r.value.output == OutputPath(file, format)
    ensures r.Some? ==> Some(r.value.source) == ExtensionFormat(Lower(SplitExt(file).1))
    ensures r.Some? ==> Some(r.value.target) == TargetFormat(format)
  {
    match Route(Lower(SplitExt(file).1), format)
    case None => None
    case Some(pair) => Some(Task(pair.0, pair.1, file, OutputPath(file, format)))
  }

  // ------------------------------------------------------------------
  // The batch
  // ------------------------------------------------------------------

  /** `[os.path.join(folder, f) for f in names if f.endswith(...)]`. */
  function Files(folder: string, names: seq<string>): (files: seq<string>)
    ensures |files| <= |names|
    ensures |files| == 0 <==> forall i :: 0 <= i < |names| ==> !Eligible(names[i])
  {
    if names == [] then []
    else
      var rest := Files(folder, names[1..]);
      if Eligible(names[0]) then [Join(folder, names[0])] + rest else rest
  }

  /** The tasks submitted for some files, in file order: one for each file
      that routes to a converter, none for the others. */
  function TasksFor(files: seq<string>, format: string): (tasks: seq<Task>)
    ensures |tasks| <= |files|
  {
    if files == [] then []
    else
      TasksFor(files[..|files| - 1], format)
      + (match TaskFor(files[|files| - 1], format) case Some(t) => [t] case None => [])
  }

  /** The submitted tasks are exactly the tasks of the files that route:
      each comes from one of the files, and no routed file is missed. */
  lemma {:induction false} TasksForMembers(files: seq<string>, format: string)
    ensures forall t :: t in TasksFor(files, format) ==> t.input in files && TaskFor(t.input, format) == Some(t)
    ensures forall f :: f in files && TaskFor(f, format).Some? ==> TaskFor(f, format).value in TasksFor(files, format)
  {
    if files != [] {
      var init := files[..|files| - 1];
      TasksForMembers(init, format);
      assert files == init + [files[|files| - 1]];
    }
  }

  /** What `batch_convert` does. */
  datatype Outcome =
    /** No name was picked up; nothing is submitted. */
    | NoValidFiles
    /** The conversions submitted to the pool, in submission order. */
    | Submitted(tasks: seq<Task>)

  /** The submission loop of `batch_convert`: each file in turn is handed
      to its converter when it routes to one, and skipped otherwise. */
  method Submit(files: seq<string>, format: string) returns (tasks: seq<Task>)
    ensures tasks == TasksFor(files, format)
  {
    tasks := [];
    for i := 0 to |files|
      invariant tasks == TasksFor(files[..i], format)
    {
      assert files[..i + 1][..i] == files[..i];
      var task := TaskFor(files[i], format);
      if task.Some? {
        tasks := tasks + [task.value];
      }
    }
    assert files[..|files|] == files;
  }

  /** `batch_convert(folder, format)` over the listed names: picks the
      eligible names, reports an empty pick, and otherwise submits one
      conversion per file that routes to a converter, in listing order. */
  method BatchConvert(folder: string, names: seq<string>, format: string) returns (outcome: Outcome)
    ensures outcome == NoValidFiles <==> forall i :: 0 <= i < |names| ==> !Eligible(names[i])
    ensures outcome.Submitted? ==> outcome.tasks == TasksFor(Files(folder, names), format)
    ensures outcome.Submitted? ==> forall t :: t in outcome.tasks ==>
              t.input in Files(folder, names) && t.source != t.target && t.output == OutputPath(t.input, format)
  {
    var files := Files(folder, names);
    if |files| == 0 {
      return NoValidFiles;
    }
    var tasks := Submit(files, format);
    TasksForMembers(files, format);
    return Submitted(tasks);
  }
}

=== FILE: dispatch_proofs.dfy ===
/** What the batch driver's path rewriting and routing guarantee for the
    files it picks up. */
module DispatchProofs {
  import opened Results
  import opened Dispatch

  /** Lower-casing never produces a dot or a slash from anything else. */
  lemma LowerKeepsSeparators(s: string)
    ensures forall i :: 0 <= i < |s| ==> (Lower(s)[i] == '.' <==> s[i] == '.')
    ensures forall i :: 0 <= i < |s| ==> (Lower(s)[i] == '/' <==> s[i] == '/')
  {
  }

  /** A path ending in a dotted suffix has that suffix as its extension, or
      no extension at all when its last component is only dots before it. */
  lemma {:induction false} SuffixIsExtension(p: string, suffix: string)
    requires EndsWith(p, suffix)
    requires |suffix| > 0 && suffix[0] == '.' && '.' !in suffix[1..] && '/' !in suffix
    ensures SplitExt(p).1 == suffix || SplitExt(p).1 == ""
    ensures SplitExt(p).1 == suffix <==> NonDotBetween(p, RFind(p, '/'), |p| - |suffix|)
  {
    var d := |p| - |suffix|;
    assert p[d..] == suffix;
    forall k | d < k < |p|
      ensures p[k] != '.'
    {
      assert p[k] == suffix[k - d] == suffix[1..][k - d - 1];
    }
    RFindUnique(p, '.', d);
    assert RFind(p, '/') < d;
  }

  /** Every name the driver picks up has its suffix, in the case it was
      matched in, as its extension or has none. */
  lemma EligibleExtension(p: string)
    requires Eligible(p)
    ensures SplitExt(p).1 in {"", ".csv", ".json", ".xml"}
  {
    if EndsWith(p, ".csv") {
      SuffixIsExtension(p, ".csv");
    } else if EndsWith(p, ".json") {
      SuffixIsExtension(p, ".json");
    } else {
      SuffixIsExtension(p, ".xml");
    }
  }

  /** Lower-casing a matched extension, as the driver does, changes
      nothing. */
  lemma LowerKeepsKnownExtension(e: string)
    requires e in {"", ".csv", ".json", ".xml"}
    ensures Lower(e) == e
  {
    forall i | 0 <= i < |e|
      ensures Lower(e)[i] == e[i]
    {
      assert !('A' <= e[i] <= 'Z');
    }
  }

  /** For a picked-up file, a converter is chosen exactly when the file has
      an extension and the target format string is one of `"CSV"`, `"JSON"`,
      `"XML"` naming a format other than the file's own. */
  lemma EligibleRouting(p: string, format: string)
    requires Eligible(p)
    ensures TaskFor(p, format).Some? <==>
              (SplitExt(p).1 != "" && TargetFormat(format).Some?
               && ExtensionFormat(SplitExt(p).1) != TargetFormat(format))
  {
    EligibleExtension(p);
    LowerKeepsKnownExtension(SplitExt(p).1);
  }

  /** The rewritten output path has the lower-cased format as its extension
      and the input's path without extension as its stem, so splitting it
      again recovers both. */
  lemma {:induction false} OutputPathSplits(file: string, format: string)
    requires SplitExt(file).1 != ""
    requires '.' !in format && '/' !in format
    ensures SplitExt(OutputPath(file, format)) == (SplitExt(file).0, "." + Lower(format))
  {
    var stem := SplitExt(file).0;
    var low := Lower(format);
    var q := OutputPath(file, format);
    var d := |stem|;
    var sep := RFind(file, '/');
    assert q == stem + ("." + low);
    assert NonDotBetween(file, sep, d);
    var w :| sep < w < d && file[w] != '.';
    assert file[..d] == stem;
    LowerKeepsSeparators(format);
    assert forall i :: 0 <= i < |low| ==> low[i] != '.' && low[i] != '/' by {
      forall i | 0 <= i < |low|
        ensures low[i] != '.' && low[i] != '/'
      {
        assert format[i] in format;
      }
    }
    forall k | d < k < |q|
      ensures q[k] != '.' && q[k] != '/'
    {
      assert q[k] == low[k - d - 1];
    }
    RFindUnique(q, '.', d);
    forall k | sep < k < |q|
      ensures q[k] != '/'
    {
      if k < d {
        assert q[k] == file[k];
      }
    }
    if sep >= 0 {
      assert q[sep] == file[sep];
    }
    RFindUnique(q, '/', sep);
    assert q[w] == file[w];
    assert NonDotBetween(q, sep, d);
    assert q[..d] == stem;
    assert q[d..] == "." + low;
  }

  /** Every task of a batch writes next to its input under the target
      format's extension, and splitting the output path gives back the
      input's stem. */
  lemma TaskOutputSplits(file: string, format: string)
    requires TaskFor(file, format).Some?
    ensures SplitExt(TaskFor(file, format).value.output)
            == (SplitExt(file).0, "." + Lower(format))
  {
    var ext := SplitExt(file).1;
    assert ExtensionFormat(Lower(ext)).Some?;
    assert ext != "";
    assert format in {"CSV", "JSON", "XML"};
    OutputPathSplits(file, format);
  }

  /** Joining a relative name keeps the folder as it is and adds at most
      one `/`, and only where the folder does not already end in one. */
  lemma JoinRelative(a: string, b: string)
    ensures !(|b| > 0 && b[0] == '/') ==> Join(a, b) == a + b || Join(a, b) == a + "/" + b
    ensures Join(a, b) == a + "/" + b ==> a != "" && a[|a| - 1] != '/'
    ensures !(|b| > 0 && b[0] == '/') && a != "" && a[|a| - 1] != '/' ==> Join(a, b) == a + "/" + b
    ensures !(|b| > 0 && b[0] == '/') && (a == "" || a[|a| - 1] == '/') ==> Join(a, b) == a + b
  {
  }

  /** Picking up files looks at each name on its own: the files of two
      runs of names are those of the first followed by those of the
      second, so the listing order is kept. */
  lemma {:induction false} FilesAppend(folder: string, a: seq<string>, b: seq<string>)
    ensures Files(folder, a + b) == Files(folder, a) + Files(folder, b)
  {
    if a == [] {
      assert a + b == b;
    } else {
      assert (a + b)[0] == a[0];
      assert (a + b)[1..] == a[1..] + b;
      FilesAppend(folder, a[1..], b);
    }
  }

  /** A single name is picked up, joined to the folder, exactly when it has
      one of the three suffixes. */
  lemma FilesOne(folder: string, name: string)
    ensures Eligible(name) ==> Files(folder, [name]) == [Join(folder, name)]
    ensures !Eligible(name) ==> Files(folder, [name]) == []
  {
    assert [name][1..] == [];
  }

  /** Every file picked up is an eligible name joined to the folder. */
  lemma {:induction false} FilesFromEligible(folder: string, names: seq<string>)
    ensures forall f :: f in Files(folder, names) ==> exists n :: n in names && Eligible(n) && f == Join(folder, n)
  {
    if names != [] {
      var rest := names[1..];
      FilesFromEligible(folder, rest);
      assert names[0] in names;
      assert forall n :: n in rest ==> n in names;
    }
  }

  /** No eligible name is missed. */
  lemma {:induction false} FilesPicksEvery(folder: string, names: seq<string>)
    ensures forall i :: 0 <= i < |names| && Eligible(names[i]) ==> Join(folder, names[i]) in Files(folder, names)
  {
    if names != [] {
      var rest := names[1..];
      FilesPicksEvery(folder, rest);
      assert forall i :: 1 <= i < |names| ==> names[i] == rest[i - 1];
    }
  }

  /** A target-format string other than the three exact names (`"json"`,
      say) submits nothing, however many files are picked up. */
  lemma {:induction false} UnknownFormatSubmitsNothing(files: seq<string>, format: string)
    requires TargetFormat(format).None?
    ensures TasksFor(files, format) == []
  {
    if files != [] {
      UnknownFormatSubmitsNothing(files[..|files| - 1], format);
    }
  }
}

=== FILE: json_values.dfy ===
/** Parsed JSON values, as `json.load` hands them to the converters, and the
    few pieces of Python behaviour the converters apply to them: truthiness,
    `dict.get` with a default, and what a `for` loop visits. */
module JsonValues {
  import opened Results

  /** A parsed JSON document. Objects are Python dicts keyed by strings;
      numbers are integers (floating point is not modelled). */
  datatype Json =
    | JNull
    | JBool(b: bool)
    | JNum(n: int)
    | JStr(s: string)
    | JArr(items: seq<Json>)
    | JObj(fields: map<string, Json>)

  /** Python truthiness of a parsed value, as tested by `if x:` or `x if x else y`. */
  predicate Truthy(j: Json) {
    match j
    case JNull => false
    case JBool(b) => b
    case JNum(n) => n != 0
    case JStr(s) => s != ""
    case JArr(xs) => xs != []
    case JObj(m) => m != map[]
  }

  /** `d.get(key, default)` on a dict. */
  function Get(m: map<string, Json>, key: string, default: Json): Json {
    if key in m then m[key] else default
  }

  /** True of a list whose every element is itself a list:
      `isinstance(data, list) and all(isinstance(row, list) for row in data)`. */
  predicate IsListOfLists(j: Json) {
    j.JArr? && forall i :: 0 <= i < |j.items| ==> j.items[i].JArr?
  }

  /** The rows of a list of lists, each row the elements of its inner list. */
  function Rows(j: Json): (rows: seq<seq<Json>>)
    requires IsListOfLists(j)
    ensures |rows| == |j.items|
    ensures forall i :: 0 <= i < |rows| ==> JArr(rows[i]) == j.items[i]
  {
    seq(|j.items|, i requires 0 <= i < |j.items| => j.items[i].items)
  }

  lemma SingletonKeys<V>(m: map<string, V>)
    requires |m| == 1
    ensures forall a, b :: a in m && b in m ==> a == b
  {
    forall a, b | a in m && b in m
      ensures a == b
    {
      if a != b {
        assert {a, b} <= m.Keys;
        assert |{a, b}| == 2;
        SubsetCardinality({a, b}, m.Keys);
      }
    }
  }

  lemma SubsetCardinality<X>(a: set<X>, b: set<X>)
    requires a <= b
    ensures |a| <= |b|
  {
    if a != {} {
      var x :| x in a;
      SubsetCardinality(a - {x}, b - {x});
    }
  }

  /** The only key of a one-entry dict. */
  function SoleKey<V>(m: map<string, V>): (k: string)
    requires |m| == 1
    ensures k in m
  {
    SingletonKeys(m);
    var k :| k in m; k
  }

  /** The items a Python `for` loop visits when it iterates `j`: the elements
      of a list, the one-character strings of a string, the keys of a dict.
      `None` when `j` is not iterable (`TypeError`) and, because a `map` keeps
      no insertion order, also for a dict with two or more keys. */
  function Iterate(j: Json): (r: Option<seq<Json>>)
    ensures j.JArr? <==> r.Some? && j == JArr(r.value)
    ensures j.JStr? ==> r.Some? && |r.value| == |j.s|
    ensures j.JStr? ==> forall i :: 0 <= i < |j.s| ==> r.value[i] == JStr([j.s[i]])
    ensures j.JObj? && |j.fields| <= 1 ==> r.Some? && |r.value| == |j.fields|
    ensures j.JObj? && |j.fields| == 1 ==> r == Some([JStr(SoleKey(j.fields))])
    ensures j.JNull? || j.JBool? || j.JNum? ==> r.None?
    // what a non-list yields is only ever strings, never a dict or a list
    ensures r.Some? && !j.JArr? ==> forall i :: 0 <= i < |r.value| ==> r.value[i].JStr?
  {
    match j
    case JArr(xs) => Some(xs)
    case JStr(s) => Some(seq(|s|, i requires 0 <= i < |s| => JStr([s[i]])))
    case JObj(m) =>
      if |m| == 0 then Some([])
      else if |m| == 1 then Some([JStr(SoleKey(m))])
      else None
    case _ => None
  }
}

=== FILE: results.dfy ===
/** Failure-compatible wrappers shared by every conversion of the model.

    The converters either produce a value or stop with an exception that the
    caller catches and reports; `Error` names the kind of stop. */
module Results {

  /** Python's optional value: `None` or a present value. */
  datatype Option<+T> = None | Some(value: T)

  /** Why a conversion stopped without output. */
  datatype Error =
    /** The JSON shape resolver did not recognise the payload
        (message box and early return, no exception). */
    | NotRecognised
    /** A `d[key]` lookup on a dict without that key (`KeyError`). */
    | MissingKey(key: string)
    /** A value of the wrong Python type was subscripted, iterated or
        asked for `.get` (`TypeError` / `AttributeError`). */
    | WrongType
    /** ElementTree's writer refused the element: a tag that is not a
        string, a tag or attribute name opening `{` with no `}` after it, an
        attribute value it cannot escape, or text that is truthy and not a
        string (`TypeError` / `ValueError`). */
    | NotSerialisable

  /** The outcome of one conversion step; usable with `:-`. */
  datatype Result<+T> = Ok(value: T) | Fail(error: Error) {

    predicate IsFailure() {
      Fail?
    }

    function PropagateFailure<U>(): Result<U>
      requires Fail?
    {
      Fail(error)
    }

    function Extract(): T
      requires Ok?
    {
      value
    }
  }

  /** Runs a sequence of steps in order and stops at the first failure, as a
      Python loop that builds a list does when one iteration raises. */
  function AllOk<T>(rs: seq<Result<T>>): (r: Result<seq<T>>)
    ensures r.Ok? <==> forall i :: 0 <= i < |rs| ==> rs[i].Ok?
    ensures r.Ok? ==> |r.value| == |rs| && forall i :: 0 <= i < |rs| ==> rs[i] == Ok(r.value[i])
    ensures r.Fail? ==> exists i :: 0 <= i < |rs| && rs[i] == Fail(r.error) && forall k :: 0 <= k < i ==> rs[k].Ok?
  {
    if rs == [] then Ok([])
    else if rs[0].Fail? then Fail(rs[0].error)
    else
      var rest :- AllOk(rs[1..]);
      assert forall i :: 1 <= i < |rs| ==> rs[i] == rs[1..][i - 1];
      Ok([rs[0].value] + rest)
  }
}

=== FILE: tables.dfy ===
/** Tables as the CSV reader produces them, and grids of JSON cells as the
    JSON loader hands them to the CSV writer. */
module Tables {
  import opened Results
  import opened JsonValues

  /** `list(csv.reader(f))`: rows of string cells; rows may differ in length. */
  type Table = seq<seq<string>>

  /** Rows of parsed JSON cells, as handed to `csv.writer.writerows`. */
  type Grid = seq<seq<Json>>

  /** A table's cells as JSON strings, which is how `json.dump` writes them. */
  function Lift(t: Table): (g: Grid)
    ensures |g| == |t|
    ensures forall i :: 0 <= i < |t| ==> |g[i]| == |t[i]|
    ensures forall i, j :: 0 <= i < |t| && 0 <= j < |t[i]| ==> g[i][j] == JStr(t[i][j])
  {
    seq(|t|, i requires 0 <= i < |t| => seq(|t[i]|, j requires 0 <= j < |t[i]| => JStr(t[i][j])))
  }

  /** `elem.text` as the writer sees it: a string is written, a falsy value
      writes nothing, any other value makes the writer raise. */
  function TextOf(t: Json): (r: Result<Option<string>>)
    ensures t.JStr? ==> r == Ok(Some(t.s))
    ensures r.Ok? <==> t.JStr? || !Truthy(t)
    ensures r.Ok? && !t.JStr? ==> r == Ok(None)
  {
    if t.JStr? then Ok(Some(t.s))
    else if !Truthy(t) then Ok(None)
    else Fail(NotSerialisable)
  }

  /** The text ElementTree writes for a JSON cell placed into a `<cell>`.
      Both converters first swap a missing value for `""` (one tests
      `is not None`, the other truthiness); the writer then emits nothing for
      any falsy value, the string itself for a non-empty string, and raises
      for any other value. */
  function CellText(c: Json): (r: Result<string>)
    ensures r.Ok? <==> c.JStr? || !Truthy(c)
    ensures c.JStr? ==> r == Ok(c.s)
    ensures !c.JStr? && r.Ok? ==> r.value == ""
  {
    // a cell element that gets no text reads back as the empty string
    var text :- TextOf(c);
    Ok(if text.Some? then text.value else "")
  }

  /** Every cell of a grid through `CellText`; the first unwritable cell stops
      the conversion. */
  function CellTexts(g: Grid): (r: Result<Table>)
    ensures r.Ok? <==> forall i, j :: 0 <= i < |g| && 0 <= j < |g[i]| ==> CellText(g[i][j]).Ok?
    ensures r.Ok? ==> |r.value| == |g| && forall i :: 0 <= i < |g| ==> |r.value[i]| == |g[i]|
    ensures r.Ok? ==> forall i, j :: 0 <= i < |g| && 0 <= j < |g[i]| ==> CellText(g[i][j]) == Ok(r.value[i][j])
    ensures r.Fail? ==> r.error == NotSerialisable
  {
    if g == [] then Ok([])
    else
      var first :- RowTexts(g[0]);
      var rest :- CellTexts(g[1..]);
      Ok([first] + rest)
  }

  function RowTexts(row: seq<Json>): (r: Result<seq<string>>)
    ensures r.Ok? <==> forall j :: 0 <= j < |row| ==> CellText(row[j]).Ok?
    ensures r.Ok? ==> |r.value| == |row| && forall j :: 0 <= j < |row| ==> CellText(row[j]) == Ok(r.value[j])
    ensures r.Fail? ==> r.error == NotSerialisable
  {
    if row == [] then Ok([])
    else
      var first :- CellText(row[0]);
      var rest :- RowTexts(row[1..]);
      Ok([first] + rest)
  }

  /** A table survives being written as JSON strings and read back into cells. */
  lemma {:induction false} CellTextsLift(t: Table)
    ensures CellTexts(Lift(t)) == Ok(t)
  {
    var r := CellTexts(Lift(t));
    assert r.Ok?;
    assert |r.value| == |t|;
    forall i | 0 <= i < |t|
      ensures r.value[i] == t[i]
    {
      assert |r.value[i]| == |t[i]|;
      forall j | 0 <= j < |t[i]|
        ensures r.value[i][j] == t[i][j]
      {
        assert CellText(Lift(t)[i][j]) == Ok(r.value[i][j]);
      }
    }
    assert r.value == t;
  }
}

=== FILE: xml_tree.dfy ===
/** ElementTree elements as the converters build and walk them. */
module XmlTree {
  import opened Results

  /** An ElementTree element: its tag, its attribute dict, its text (`None`
      when the element carries no text) and its children in document order.
      Tail text is not modelled: no converter reads or writes it. */
  datatype Node = Node(tag: string, attrs: map<string, string>, text: Option<string>, children: seq<Node>)

  /** `e.text if e.text else ""`: absent text reads as the empty string. */
  function TextOrEmpty(text: Option<string>): string {
    match text
    case Some(s) => s
    case None => ""
  }

  /** `parent.findall(tag)` for a plain tag name: the direct children that
      carry exactly that tag, in document order; deeper descendants are not
      visited. */
  function FindAll(nodes: seq<Node>, tag: string): (r: seq<Node>)
    ensures |r| <= |nodes|
    ensures forall k :: 0 <= k < |r| ==> r[k].tag == tag
    ensures (forall k :: 0 <= k < |nodes| ==> nodes[k].tag == tag) ==> r == nodes
  {
    if nodes == [] then []
    else (if nodes[0].tag == tag then [nodes[0]] else []) + FindAll(nodes[1..], tag)
  }

  /** `findall` keeps exactly the children with the tag: nothing with the
      tag is lost and nothing without it is kept. */
  lemma {:induction false} FindAllMembers(nodes: seq<Node>, tag: string)
    ensures forall x :: x in FindAll(nodes, tag) <==> x in nodes && x.tag == tag
  {
    if nodes != [] {
      FindAllMembers(nodes[1..], tag);
      assert nodes == [nodes[0]] + nodes[1..];
    }
  }

  /** Selecting by tag distributes over concatenation: the children matched
      in a prefix come first, in order, then those matched in the rest. */
  lemma {:induction false} FindAllAppend(a: seq<Node>, b: seq<Node>, tag: string)
    ensures FindAll(a + b, tag) == FindAll(a, tag) + FindAll(b, tag)
  {
    if a == [] {
      assert a + b == b;
    } else {
      assert (a + b)[1..] == a[1..] + b;
      FindAllAppend(a[1..], b, tag);
    }
  }

  /** A child whose tag does not match is skipped: removing it anywhere does
      not change what `findall` returns. */
  lemma FindAllSkipsForeign(a: seq<Node>, x: Node, b: seq<Node>, tag: string)
    requires x.tag != tag
    ensures FindAll(a + [x] + b, tag) == FindAll(a + b, tag)
  {
    FindAllAppend(a + [x], b, tag);
    FindAllAppend(a, [x], tag);
    FindAllAppend(a, b, tag);
  }
}
